=== FILE: README.md ===
# Critique recommender: text cleaning and similar-critique ranking

A Dafny model of the two pieces of logic in `recommandation_critiques.py`:

- `clean_text` deletes every HTML-like tag, meaning each match of the regular expression `<[^>]+>`, and lowercases the rest.
- `get_similar_reviews` looks a critique up by `id` and keeps the critiques of the same movie. It scores them by TF-IDF cosine similarity to the reference, zeroes one score, and can blend in rating proximity. It takes the `top_n` best and sorts them by (similarity, like count). It then puts the reference itself in front with similarity 1.0.

Modules, one per concern:

- `Options` (`options.dfy`): the `Option` datatype.
- `Cleaning` (`cleaning.dfy`): `clean_text`. There are three views of the same function:
  - the `re.sub` left-to-right scan (`StripFrom`);
  - a declarative reference: the characters lying in no `<[^>]+>` span (`Outside`);
  - an imperative single pass (`CleanTextScan`).
- `Corpus` (`corpus.dfy`): the critique table `df` after `reset_index`, where row labels are positions. It holds the id lookup, the row list of one movie, and the global maximum rating.
- `Scoring` (`scoring.dfy`): the rating term `1 - |r - r_ref| / max` and the blend `(1 - w) * s + w * rating_term`.
- `Sorting` (`sorting.dfy`): a descending sort on a lexicographic (real, int) key. It is used for numpy's `argsort()[::-1]` and for pandas' `sort_values(..., ascending=[False, False])`.
- `Ranking` (`ranking.dfy`): `get_similar_reviews` itself (`SimilarReviews`), its stages, and its properties.

Inputs that come from outside the modelled code are parameters:

- The TF-IDF cosine similarity between corpus rows `i` and `j` is `sim(i, j)`.
- The table is a `seq<Critique>`.

Python's string result `"Critique <id> introuvable"` is the `Introuvable(id)` outcome. numpy's `IndexError` at line 75 is the `IndexError(index, size)` outcome. pandas' `KeyError` at line 94 is the `KeyError(missing)` outcome. A NaN similarity is `None` in a row's `Option<real>` similarity.

Three facts about the code shape the model:

- The reference is never removed from the candidates. Line 75 only zeroes one entry of the per-movie score vector. That entry is the reference's own exactly when every row of the table up to the reference belongs to its movie. So the reference can come back among the trailing rows (`Ranking.ReferenceReappears`).
- Line 84 cuts to `top_n` by score alone. Line 97 sorts by (similarity, like count) only the rows that survived the cut.
- With `use_rating`, line 81 makes `sim_scores` a pandas Series whose labels are the movie's row numbers. Line 94 then looks the chosen positions up as labels and aligns the result by label (`Ranking.RankByLabel`). Without rating, `sim_scores` stays a numpy array and line 94 reads positions (`Ranking.Rank`).

## Model

| member | source | states |
|---|---|---|
| `Cleaning.Lower` | recommandation_critiques.py:35 | lowercasing maps each ASCII capital to the matching small letter (`'A'` to `'a'`, and so on), leaves every other character unchanged, and leaves no capital |
| `Cleaning.LowerString` | recommandation_critiques.py:35 | `text.lower()` keeps the length, lowercases each character as `Cleaning.Lower` does, leaves no ASCII capital, and leaves every other character in place |
| `Cleaning.FindGt` | recommandation_critiques.py:34 | the result is the first `>` at or after the start position, or there is no `>` there at all |
| `Cleaning.TagEnd` | recommandation_critiques.py:34 | a match of `<[^>]+>` starts at `i` and ends at `j` exactly when the result is `j`: a `<`, at least one non-`>` character, then the first `>` |
| `Cleaning.FindTagEnd` | recommandation_critiques.py:34 | walking from a `<` to the next `>` finds exactly the match that starts there, if any |
| `Cleaning.StripTags` | recommandation_critiques.py:34 | the `re.sub` result contains no match of `<[^>]+>`, and it is exactly the characters of the input that lie in no match, in order |
| `Cleaning.StripFromTagFree` | recommandation_critiques.py:34 | the scan's output never contains a match of `<[^>]+>`, even where removing one tag brings a `<` next to a later `>` |
| `Cleaning.StripFromIsOutside` | recommandation_critiques.py:34 | from any position that no match straddles, the scan keeps exactly the characters covered by no match of `<[^>]+>`, in order |
| `Cleaning.StripFromTagFreeIdentity` | recommandation_critiques.py:34 | on a text with no match the substitution changes nothing |
| `Cleaning.CleanText` | recommandation_critiques.py:33-36 | the cleaned text has no tag and no ASCII capital, and equals the lowercased characters lying outside every tag, in their original order |
| `Cleaning.CleanTextIdempotent` | recommandation_critiques.py:33-36 | cleaning a cleaned text gives it back unchanged |
| `Cleaning.NoTagKeepsLength` | recommandation_critiques.py:34-35 | a text without `<` keeps every character, so it keeps its length; only the case changes |
| `Cleaning.CleanTextScan` | recommandation_critiques.py:33-36 | a single left-to-right pass that skips each tag and lowercases every other character computes `clean_text` |
| `Corpus.FindId` | recommandation_critiques.py:59-63 | nothing is found exactly when no row has the id; otherwise the result is the first row carrying it |
| `Corpus.MovieIndices` | recommandation_critiques.py:64-68 | the movie's row list holds every row of that movie and nothing else, in increasing table order |
| `Corpus.MaxRating` | recommandation_critiques.py:80 | the global maximum rating is at least every rating of the table and is the rating of some row |
| `Corpus.BlockStartsAtZero` | recommandation_critiques.py:68-75 | entry `n` of a movie's row list is row `n` exactly when rows 0 to `n` all belong to that movie |
| `Scoring.RatingScore` | recommandation_critiques.py:79-80 | the rating term is at most 1, is 1 exactly when the ratings are equal, and is at least 0 when both ratings lie within [0, max] |
| `Scoring.Blend` | recommandation_critiques.py:81 | each score is `(1 - w) * lexical + w * rating term`; weight 0 gives the lexical scores unchanged, weight 1 the rating terms, and a weight in [0, 1] puts each score between its two parts |
| `Sorting.SortDesc` | recommandation_critiques.py:97 | the output is a permutation of the input, ordered non-increasingly by the key compared lexicographically, a missing (NaN) similarity ranking last |
| `Ranking.ArgsortDesc` | recommandation_critiques.py:84 | `argsort()[::-1]` lists every position exactly once, by non-increasing score |
| `Ranking.SliceLengthCounts` | recommandation_critiques.py:84 | the length of `[:top_n]` is the number of positions the Python slice keeps: those below `top_n`, or, for a negative `top_n`, all but the last `-top_n` |
| `Ranking.TopIndices` | recommandation_critiques.py:84 | `[:top_n]` keeps the Python-slice number of distinct positions, by non-increasing score. No position left out scores above a kept one. A `top_n` at least the vector's length keeps every position |
| `Ranking.Lexical` | recommandation_critiques.py:72 | one score per critique of the reference's movie, in row order: the similarity of the reference to that critique |
| `Ranking.Proximity` | recommandation_critiques.py:79-80 | one rating term per critique of the reference's movie, in row order: `1 - abs(r - r_ref) / max rating` for that critique's rating |
| `Ranking.BlockScores` | recommandation_critiques.py:72-81 | without rating, entry `slot` is 0 and every other entry is the lexical similarity of its row to the reference; with rating, each entry is `(1 - w) * that + w * (1 - abs(r - r_ref) / max rating)` |
| `Ranking.Rank` | recommandation_critiques.py:63-100 | with scores attached by position: one row more than the slice length, the reference first at similarity 1.0, then distinct critiques of the movie (a sub-multiset of the scored candidates) each with its own score, none left out scoring higher than one kept, ordered by (similarity, like count) descending |
| `Ranking.MissingLabels` | recommandation_critiques.py:94 | the labels `.loc` cannot find are exactly the chosen positions that are not row numbers of the movie; there are none exactly when every chosen position is one |
| `Ranking.AlignedSimilarityIsOwnOrNaN` | recommandation_critiques.py:94 | under the alignment by label, a row gets a similarity exactly when its row number is a chosen position, and then it is the score at the row's own place in the movie; otherwise NaN |
| `Ranking.LabelledPicks` | recommandation_critiques.py:91-94 | one row per chosen position, in order: the critique at that position, with the similarity the alignment by label gives its row number |
| `Ranking.LabelsArePositions` | recommandation_critiques.py:81-94 | when the movie's rows are 0, 1, ..., n - 1, looking up and aligning by label attaches to every chosen row its own positional score |
| `Ranking.RankByLabel` | recommandation_critiques.py:81-100 | with rating, given the reference, the movie's row numbers as labels and the score vector: `KeyError` exactly when a chosen position is not a row number of the movie, naming exactly those; otherwise the reference first, then exactly the rows of the chosen positions, in some order: for each, the critique at that position with the similarity aligned by label (its own score when its row number is itself a chosen position, NaN when it is not), sorted with NaN last; when the movie's rows are 0, 1, ..., n - 1, never `KeyError`, and the trailing rows are a top-`n` selection |
| `Ranking.LabelsMatchPositions` | recommandation_critiques.py:81-94 | when the movie's rows are rows 0 to n - 1 of the table, the rating path as written gives exactly the positional ranking |
| `Ranking.LabelLookupFailsOffStart` | recommandation_critiques.py:81-94 | when `top_n` covers the movie and its first row is not row 0 of the table, position 0 is chosen and is no label, so the rating path raises `KeyError` |
| `Ranking.LabelLookupMisalignsOffStart` | recommandation_critiques.py:81-97 | on a movie at rows 1, 2, 3 with scores 0.1, 0.9, 0.5 and `top_n = 2`, nothing is raised, the critiques kept are those at positions 1 and 2, but by label the first gets position 1's score 0.9 and the second NaN, so the result is exactly the reference, then row 2 with 0.9, then row 3 with NaN |
| `Ranking.SimilarReviews` | recommandation_critiques.py:47-102 | "introuvable" exactly when no row has the id; an `IndexError` exactly when the first such row's number is at least the number of critiques of its movie; with rating, a `KeyError` exactly when a chosen position is not a row number of the movie, never without; otherwise the reference first with the requested id, then rows sorted by (similarity, like count), each a critique of the movie with its own score or NaN; without rating, or when the movie's rows are rows 0 to n - 1 of the table, a top-`n` selection of distinct candidates with none left out scoring higher; with rating, exactly the label-aligned rows of the chosen positions |
| `Ranking.SimilarReviewsWithDefaults` | recommandation_critiques.py:47 | with the defaults `top_n=5, use_rating=False, rating_weight=0.5` no `KeyError` can occur, "introuvable" is returned exactly when the id is absent, and a ranked result has between 1 and 6 rows, led by the requested critique |
| `Ranking.ReferenceReappears` | recommandation_critiques.py:75-94 | when `top_n` is at least the movie's critique count, the reference critique appears again among the trailing rows |
| `Ranking.ZeroWeightIgnoresRating` | recommandation_critiques.py:78-94 | rating weight 0 yields the same scores and the same positional ranking as not using the rating; on the rating path as written, the result is the same as without rating when the movie's rows are rows 0 to n - 1 of the table |
| `Ranking.UnitWeightIgnoresText` | recommandation_critiques.py:78-94 | with rating weight 1 the scores are the rating terms alone, and the result, positional or by label, is the same whatever the lexical similarities are |
| `Ranking.ProximityInUnitInterval` | recommandation_critiques.py:79-80 | with non-negative ratings and a positive maximum, every rating term lies in [0, 1] |
| `Ranking.BlendedScoresInUnitInterval` | recommandation_critiques.py:78-81 | similarities in [0, 1], non-negative ratings and a weight in [0, 1] keep every blended score in [0, 1] |
| `Ranking.BlendedReferenceScoresWeight` | recommandation_critiques.py:75-81 | when the zeroed entry is the reference's own, blending gives the reference the score `w` (its rating term is 1) |
| `Ranking.ZeroedSlotIsReferenceIff` | recommandation_critiques.py:75 | the entry line 75 zeroes is the reference's own similarity exactly when every earlier row of the table belongs to the reference's movie |
| `Ranking.SlotMissesReference` | recommandation_critiques.py:63-75 | on a table of one Fight Club critique and two Interstellar critiques, asking for the third raises `IndexError(2, 2)`, asking for the second zeroes the third's similarity instead of its own, and the corrected version ranks the third |
| `Ranking.RatingLookupRaises` | recommandation_critiques.py:81-94 | on the same table, asking for the second critique with rating (`top_n=5`, weight 0.3, as in the example call at lines 112-117) raises `KeyError`, and the corrected version ranks it |
| `Ranking.SimilarReviewsCorrected` | recommandation_critiques.py:74-94 | with the reference's own entry zeroed and scores attached by position, no present id raises an `IndexError` or a `KeyError`, and every ranked result is the reference followed by a sorted top-`n` selection of distinct candidates, none left out scoring higher |
| `Ranking.OwnSlotIsReference` | recommandation_critiques.py:74-75 | the corrected zeroed entry belongs to the reference's row, and without rating it scores 0 |

## Findings

| source | as written | input that shows it | evidently intended | confidence | as-written member | corrected member |
|---|---|---|---|---|---|---|
| recommandation_critiques.py:75 | `sim_scores[df.index.get_indexer([idx])] = 0` indexes the per-movie score vector with `idx`, a row number of the whole table | table `[Fight Club #1, Interstellar #2, Interstellar #3]`: id 3 gives `IndexError` (index 2, size 2); id 2 zeroes the score of critique 3 and keeps critique 2's self-similarity | zero the reference's own entry, at its position inside the movie's rows ("Exclure la critique elle-même") | not executed; high | `Ranking.SlotMissesReference` | `Ranking.SimilarReviewsCorrected` |
| recommandation_critiques.py:81-94 | with `use_rating`, line 81 turns `sim_scores` into a Series labelled by the movie's row numbers, and `sim_scores[top_indices]` at line 94 looks positions up as labels | same table, `get_similar_reviews(2, 5, True, 0.3)`: positions 0 and 1 are chosen, the labels are 1 and 2, so label 0 raises `KeyError`. When every chosen position happens to be a label, nothing is raised but scores land on the wrong rows: a movie at rows 1, 2, 3 with scores 0.1, 0.9, 0.5 and `top_n = 2` gives row 2 the score 0.9 and row 3 NaN (`Ranking.LabelLookupMisalignsOffStart`) | attach to each chosen row its own score, as the path without rating does | not executed; high | `Ranking.RatingLookupRaises` | `Ranking.SimilarReviewsCorrected` |

`Ranking.SimilarReviews` models the code as written. `Ranking.SimilarReviewsCorrected` zeroes the reference's own entry and attaches scores by position. Both run the positional stages of `Ranking.Rank` wherever the code reads positions, so every `Rank` lemma holds for both. `Ranking.ZeroedSlotIsReferenceIff` states when line 75 zeroes the right entry: exactly when the reference's movie owns all rows before it. `Ranking.LabelsMatchPositions` states when line 94 agrees with the positional ranking: when the movie's rows are rows 0 to n - 1 of the table. Both hold for the first film of the concatenated table.

## Left out

- CSV loading, `nltk.download`, `dropna`, the pandas display option and every `print` (lines 10-30, 44, 104-120): input, output and presentation. The table is a parameter, with `review_content` already present.
- `TfidfVectorizer` fitting and `cosine_similarity` (lines 42-43, 72): these are library computations in floating point. Their result is the parameter `sim(i, j)`.
- Floating point in general: scores and ratings are exact reals. NaN ratings are not modelled. The only NaN modelled is the similarity that line 94's label alignment gives a row whose number is not among the chosen positions.
- `Cleaning.Lower`: handles ASCII `A`-`Z` only, because Python's Unicode-aware `str.lower` is outside the model.
- `Ranking.TopIndices`: numpy's default `argsort` is not stable. The model breaks ties by a fixed rule (earlier position first), and its contract states only the top-`n` set and the score order, not which of several equal scores survives the cut.
- `Sorting.SortDesc`: pandas promises no order among rows with equal (similarity, like count). The contract states only sortedness and permutation.
- `Ranking.SimilarReviews`: on the rating path, when the movie's rows are not rows 0 to n - 1 of the table and no `KeyError` occurs, lines 84 and 91 still keep the critiques at a top-`n` selection of positions, and the contract says so: the trailing rows are exactly the label-aligned rows of those positions. Because line 94 gives some of those rows NaN, the top-`n` property is stated over the chosen positions (`TopIndices`), and not as "none left out scoring higher" over the rows.
- `Ranking.SimilarReviews`: requires a positive global maximum rating when `use_rating` is set and the id is present. A zero maximum makes line 80 divide by zero and produce inf or NaN in numpy, which is not modelled.
- `Ranking.SimilarReviews`: returns the outcome `Introuvable(id)` in place of the formatted string `"Critique <id> introuvable"`. String formatting of an integer is presentation.
- The result rows carry the whole critique record rather than the five projected columns (`id`, `review_title`, `review_content`, `rating`, `gen_review_like_count`). The projection is presentation, and keeping `movie_title` lets the same-movie property be stated.
- The table is any sequence of critiques, so films may interleave. Line 23 concatenates one film's critiques after the other's, so each film's rows are contiguous: the first film's are rows 0 to n - 1, the second's follow. Every contract holds for any table, and the contiguous one is a special case.
- `df.index.get_indexer([idx])` is taken to return `idx`. That holds because the table was re-indexed 0, 1, ... at line 30.
- Behaviour the code does not have, and that is therefore not modelled:
  - an error for a `rating_weight` outside [0, 1] or for a zero maximum rating;
  - removal of the reference from the candidates;
  - like-count tie-breaking at the top-`n` cut.

=== FILE: cleaning.dfy ===
/**
  `clean_text` (recommandation_critiques.py, lines 33-36): delete every match of
  the regular expression `<[^>]+>` and lowercase what is left.

  `re.sub` scans left to right and replaces leftmost, non-overlapping matches.
  At a `<` the class `[^>]+` consumes everything up to the first `>` (it may
  include further `<` and line breaks), so a match starts at `i` exactly when
  `s[i] == '<'` and the first `>` after `i` is not `s[i + 1]`; the match then
  ends at that `>`. Lowercasing is modelled on ASCII `A`..`Z` only.
 */
module Cleaning {
  import opened Options

  predicate IsUpper(c: char) {
    'A' <= c <= 'Z'
  }

  /** ASCII lowercase of one character; every non-letter is unchanged. */
  function Lower(c: char): (d: char)
    ensures !IsUpper(d)
    ensures d == '<' <==> c == '<'
    ensures d == '>' <==> c == '>'
    ensures IsUpper(c) ==> d as int == c as int - 'A' as int + 'a' as int
    ensures !IsUpper(c) ==> d == c
  {
    if IsUpper(c) then (c as int - 'A' as int + 'a' as int) as char else c
  }

  /** `str.lower` restricted to ASCII: the character-wise case mapping. */
  function LowerString(s: string): (r: string)
    ensures |r| == |s|
    ensures forall k :: 0 <= k < |s| ==> r[k] == Lower(s[k])
    ensures forall k :: 0 <= k < |r| ==> !IsUpper(r[k])
    ensures forall k :: 0 <= k < |s| && !IsUpper(s[k]) ==> r[k] == s[k]
  {
    seq(|s|, k requires 0 <= k < |s| => Lower(s[k]))
  }

  /** `s[i..j + 1]` is a match of `<[^>]+>`: a `<`, one or more non-`>` characters, then a `>`. */
  ghost predicate IsTagSpan(s: string, i: nat, j: nat) {
    i + 2 <= j < |s| && s[i] == '<' && s[j] == '>'
    && forall k :: i < k < j ==> s[k] != '>'
  }

  /** No substring of `s` matches `<[^>]+>`. */
  ghost predicate TagFree(s: string) {
    forall i: nat, j: nat :: !IsTagSpan(s, i, j)
  }

  /** Position of the first `>` at or after `from`, if any. */
  function FindGt(s: string, from: nat): (r: Option<nat>)
    decreases |s| - from
    ensures r.Some? ==> from <= r.value < |s| && s[r.value] == '>'
    ensures r.Some? ==> forall k :: from <= k < r.value ==> s[k] != '>'
    ensures r.None? ==> forall k :: from <= k < |s| ==> s[k] != '>'
  {
    if from >= |s| then None
    else if s[from] == '>' then Some(from)
    else FindGt(s, from + 1)
  }

  /** The last position of the match of `<[^>]+>` that starts at `i`, if one does. */
  function TagEnd(s: string, i: nat): (r: Option<nat>)
    ensures forall j: nat :: IsTagSpan(s, i, j) <==> r == Some(j)
  {
    if i < |s| && s[i] == '<' then
      match FindGt(s, i + 1)
      case Some(j) => if j >= i + 2 then Some(j) else None
      case None => None
    else None
  }

  /** The `re.sub` scan from position `i`: skip each match, keep every other character. */
  function StripFrom(s: string, i: nat): string
    decreases |s| - i
  {
    if i >= |s| then []
    else match TagEnd(s, i)
      case Some(j) => assert IsTagSpan(s, i, j); StripFrom(s, j + 1)
      case None => [s[i]] + StripFrom(s, i + 1)
  }

  /** `re.sub(r'<[^>]+>', '', s)`. */
  function StripTags(s: string): (r: string)
    ensures TagFree(r)
    ensures r == Outside(s, 0)
  {
    StripFromTagFree(s, 0);
    StripFromIsOutside(s, 0);
    StripFrom(s, 0)
  }

  /** `clean_text`: strip the tags, then lowercase. */
  function CleanText(s: string): (r: string)
    ensures TagFree(r)
    ensures forall k :: 0 <= k < |r| ==> !IsUpper(r[k])
    ensures r == LowerString(Outside(s, 0))
  {
    LowerKeepsTagFree(StripTags(s));
    LowerString(StripTags(s))
  }

  // ---------------------------------------------------------------------
  // The output contains no match

  /** Every character the scan keeps from position `i` on occurs in `s` at or after `i`. */
  lemma {:induction false} StripFromDrawsFrom(s: string, i: nat)
    decreases |s| - i
    ensures forall c :: c in StripFrom(s, i) ==> exists m :: i <= m < |s| && s[m] == c
  {
    if i < |s| {
      match TagEnd(s, i)
      case Some(j) =>
        assert IsTagSpan(s, i, j);
        StripFromDrawsFrom(s, j + 1);
      case None =>
        StripFromDrawsFrom(s, i + 1);
        assert StripFrom(s, i) == [s[i]] + StripFrom(s, i + 1);
    }
  }

  /** Prepending `c` to a tag-free string keeps it tag-free unless `c` opens a new match. */
  lemma ConsTagFree(c: char, t: string)
    requires TagFree(t)
    requires c == '<' ==> (forall m :: 0 <= m < |t| ==> t[m] != '>') || (|t| > 0 && t[0] == '>')
    ensures TagFree([c] + t)
  {
    var u := [c] + t;
    forall i: nat, j: nat ensures !IsTagSpan(u, i, j) {
      if i == 0 {
        if 2 <= j < |u| {
          assert u[j] == t[j - 1];
          assert u[1] == t[0];
        }
      } else if i + 2 <= j < |u| {
        assert !IsTagSpan(t, i - 1, j - 1);
        assert u[i] == t[i - 1] && u[j] == t[j - 1];
        forall k | i - 1 < k < j - 1 ensures u[k + 1] == t[k] { }
      }
    }
  }

  /** The scan never produces a match of `<[^>]+>`. */
  lemma {:induction false} StripFromTagFree(s: string, i: nat)
    decreases |s| - i
    ensures TagFree(StripFrom(s, i))
  {
    if i < |s| {
      match TagEnd(s, i)
      case Some(j) =>
        assert IsTagSpan(s, i, j);
        StripFromTagFree(s, j + 1);
      case None =>
        var t := StripFrom(s, i + 1);
        StripFromTagFree(s, i + 1);
        if s[i] == '<' {
          match FindGt(s, i + 1)
          case None =>
            StripFromDrawsFrom(s, i + 1);
            assert forall m :: 0 <= m < |t| ==> t[m] in t;
          case Some(g) =>
            assert g == i + 1;
            assert TagEnd(s, g) == None;
            assert t == [s[g]] + StripFrom(s, g + 1);
        }
        ConsTagFree(s[i], t);
    }
  }

  /** Lowercasing neither creates nor destroys `<` or `>`, so tag-freedom survives it. */
  lemma LowerKeepsTagFree(t: string)
    requires TagFree(t)
    ensures TagFree(LowerString(t))
  {
    var u := LowerString(t);
    forall i: nat, j: nat ensures !IsTagSpan(u, i, j) {
      assert !IsTagSpan(t, i, j);
    }
  }

  // ---------------------------------------------------------------------
  // Idempotence

  /** On a tag-free string the scan keeps everything. */
  lemma {:induction false} StripFromTagFreeIdentity(s: string, i: nat)
    requires TagFree(s)
    requires i <= |s|
    decreases |s| - i
    ensures StripFrom(s, i) == s[i..]
  {
    if i < |s| {
      assert TagEnd(s, i) == None by {
        forall j: nat ensures TagEnd(s, i) != Some(j) {
          assert !IsTagSpan(s, i, j);
        }
      }
      StripFromTagFreeIdentity(s, i + 1);
      assert s[i..] == [s[i]] + s[i + 1..];
    }
  }

  /** Cleaning a cleaned text changes nothing. */
  lemma CleanTextIdempotent(s: string)
    ensures CleanText(CleanText(s)) == CleanText(s)
  {
    var t := CleanText(s);
    StripFromTagFreeIdentity(t, 0);
    assert StripTags(t) == t;
    assert LowerString(t) == t;
  }

  /** A text without `<` keeps every character: only the case changes. */
  lemma NoTagKeepsLength(s: string)
    requires forall k :: 0 <= k < |s| ==> s[k] != '<'
    ensures CleanText(s) == LowerString(s)
    ensures |CleanText(s)| == |s|
  {
    assert TagFree(s);
    StripFromTagFreeIdentity(s, 0);
    assert StripTags(s) == s;
  }

  // ---------------------------------------------------------------------
  // Declarative reference: the characters outside every match survive

  /** Position `p` lies inside some match of `<[^>]+>`. */
  ghost predicate InTag(s: string, p: nat) {
    exists a: nat, b: nat :: a <= p <= b && IsTagSpan(s, a, b)
  }

  /** Some match starts before `i` and reaches `i`. */
  ghost predicate Straddled(s: string, i: nat) {
    exists a: nat, b: nat :: a < i <= b && IsTagSpan(s, a, b)
  }

  /** The characters of `s[i..]` that lie in no match, in their original order. */
  ghost function Outside(s: string, i: nat): string
    decreases |s| - i
  {
    if i >= |s| then []
    else (if InTag(s, i) then [] else [s[i]]) + Outside(s, i + 1)
  }

  /** Two matches that overlap end at the same `>`. */
  lemma OverlappingSpansShareEnd(s: string, i: nat, j: nat)
    requires IsTagSpan(s, i, j)
    ensures forall a: nat, b: nat :: i <= a <= j && IsTagSpan(s, a, b) ==> b == j
  {
  }

  /** Skipping over a match drops only characters inside it. */
  lemma {:induction false} OutsideSkipsSpan(s: string, i: nat, j: nat, m: nat)
    requires IsTagSpan(s, i, j)
    requires i <= m <= j + 1
    decreases j + 1 - m
    ensures Outside(s, m) == Outside(s, j + 1)
  {
    if m <= j {
      assert InTag(s, m);
      OutsideSkipsSpan(s, i, j, m + 1);
    }
  }

  /** After a match that nothing straddles, nothing straddles the position past its end. */
  lemma NothingStraddlesSpanEnd(s: string, i: nat, j: nat)
    requires !Straddled(s, i)
    requires IsTagSpan(s, i, j)
    ensures !Straddled(s, j + 1)
  {
    OverlappingSpansShareEnd(s, i, j);
  }

  /** When no match starts at `i` and none straddles it, `s[i]` lies outside every match, and nothing straddles `i + 1`. */
  lemma NoSpanAtKept(s: string, i: nat)
    requires !Straddled(s, i)
    requires TagEnd(s, i) == None
    ensures !InTag(s, i)
    ensures !Straddled(s, i + 1)
  {
  }

  /** From any position no match straddles, the scan keeps exactly the characters outside every match. */
  lemma {:induction false} StripFromIsOutside(s: string, i: nat)
    requires !Straddled(s, i)
    decreases |s| - i
    ensures StripFrom(s, i) == Outside(s, i)
  {
    if i < |s| {
      match TagEnd(s, i)
      case Some(j) =>
        assert IsTagSpan(s, i, j);
        OutsideSkipsSpan(s, i, j, i);
        NothingStraddlesSpanEnd(s, i, j);
        StripFromIsOutside(s, j + 1);
        assert StripFrom(s, i) == StripFrom(s, j + 1);
      case None =>
        NoSpanAtKept(s, i);
        StripFromIsOutside(s, i + 1);
        assert StripFrom(s, i) == [s[i]] + StripFrom(s, i + 1);
    }
  }

  // ---------------------------------------------------------------------
  // The left-to-right scan as a loop

  /** One step of the scan keeps `s[i]`, lowercased, when no match starts at `i`. */
  lemma CleanStep(s: string, i: nat)
    requires i < |s|
    requires TagEnd(s, i) == None
    ensures LowerString(StripFrom(s, i)) == [Lower(s[i])] + LowerString(StripFrom(s, i + 1))
  {
    assert StripFrom(s, i) == [s[i]] + StripFrom(s, i + 1);
  }

  /** Looks for the match of `<[^>]+>` at `i` by walking to the next `>`. */
  method FindTagEnd(s: string, i: nat) returns (e: Option<nat>)
    requires i < |s|
    ensures e == TagEnd(s, i)
  {
    e := None;
    if s[i] == '<' {
      var j := i + 1;
      while j < |s| && s[j] != '>'
        invariant i + 1 <= j <= |s|
        invariant forall k :: i < k < j ==> s[k] != '>'
        decreases |s| - j
      {
        j := j + 1;
      }
      if j < |s| && j >= i + 2 {
        assert IsTagSpan(s, i, j);
        e := Some(j);
      }
    }
  }

  /** A match at `i` is skipped whole. */
  lemma SkipStep(s: string, i: nat, j: nat)
    requires i < |s|
    requires TagEnd(s, i) == Some(j)
    ensures j + 1 <= |s|
    ensures StripFrom(s, i) == StripFrom(s, j + 1)
  {
    assert IsTagSpan(s, i, j);
  }

  /** Appending the kept character to the output so far keeps the loop's account. */
  lemma KeepStep(s: string, i: nat, r: string)
    requires i < |s|
    requires TagEnd(s, i) == None
    ensures (r + [Lower(s[i])]) + LowerString(StripFrom(s, i + 1)) == r + LowerString(StripFrom(s, i))
  {
    CleanStep(s, i);
  }

  /** `clean_text` as a single left-to-right pass. */
  method CleanTextScan(s: string) returns (r: string)
    ensures r == CleanText(s)
  {
    r := [];
    var i := 0;
    while i < |s|
      invariant i <= |s|
      invariant r + LowerString(StripFrom(s, i)) == LowerString(StripFrom(s, 0))
      decreases |s| - i
    {
      var tagEnd := FindTagEnd(s, i);
      match tagEnd
      case Some(j) =>
        SkipStep(s, i, j);
        i := j + 1;
      case None =>
        KeepStep(s, i, r);
        r := r + [Lower(s[i])];
        i := i + 1;
    }
    assert r == LowerString(StripFrom(s, 0));
  }
}

=== FILE: corpus.dfy ===
/**
  The critique table `df` (recommandation_critiques.py, lines 15-30) after
  concatenation and `reset_index`: row labels are the positions 0, 1, ...,
  so a label and a position are the same number throughout.
 */
module Corpus {
  import opened Options

  /** One row of `df`; `likeCount` is the `gen_review_like_count` column. */
  datatype Critique = Critique(
    id: int,
    reviewTitle: string,
    reviewContent: string,
    movieTitle: string,
    rating: real,
    likeCount: int)

  /** Positions strictly increase along the sequence. */
  ghost predicate Increasing(xs: seq<nat>) {
    forall i, j :: 0 <= i < j < |xs| ==> xs[i] < xs[j]
  }

  /** First row at or after `from` whose `id` is `id`. */
  function FindIdFrom(df: seq<Critique>, id: int, from: nat): (r: Option<nat>)
    decreases |df| - from
    ensures r.None? <==> forall i :: from <= i < |df| ==> df[i].id != id
    ensures r.Some? ==> from <= r.value < |df| && df[r.value].id == id
    ensures r.Some? ==> forall i :: from <= i < r.value ==> df[i].id != id
  {
    if from >= |df| then None
    else if df[from].id == id then Some(from)
    else FindIdFrom(df, id, from + 1)
  }

  /** `df.index[df["id"] == id][0]`, or nothing when `id not in df["id"].values`. */
  function FindId(df: seq<Critique>, id: int): (r: Option<nat>)
    ensures r.None? <==> forall i :: 0 <= i < |df| ==> df[i].id != id
    ensures r.Some? ==> r.value < |df| && df[r.value].id == id
    ensures r.Some? ==> forall i :: 0 <= i < r.value ==> df[i].id != id
  {
    FindIdFrom(df, id, 0)
  }

  /** Rows at or after `from` whose `movie_title` is `movie`, in table order. */
  function RowsOfFrom(df: seq<Critique>, movie: string, from: nat): (r: seq<nat>)
    decreases |df| - from
    ensures forall k :: 0 <= k < |r| ==> from <= r[k] < |df| && df[r[k]].movieTitle == movie
    ensures forall i :: from <= i < |df| && df[i].movieTitle == movie ==> i in r
    ensures Increasing(r)
  {
    if from >= |df| then []
    else if df[from].movieTitle == movie then [from] + RowsOfFrom(df, movie, from + 1)
    else RowsOfFrom(df, movie, from + 1)
  }

  /** `df[df["movie_title"] == movie].index`: every row of `movie`, in table order. */
  function MovieIndices(df: seq<Critique>, movie: string): (r: seq<nat>)
    ensures forall k :: 0 <= k < |r| ==> r[k] < |df| && df[r[k]].movieTitle == movie
    ensures forall i :: 0 <= i < |df| && df[i].movieTitle == movie ==> i in r
    ensures Increasing(r)
  {
    RowsOfFrom(df, movie, 0)
  }

  /** `df["rating"].max()`: the largest rating of the whole table. */
  function MaxRating(df: seq<Critique>): (m: real)
    requires |df| > 0
    ensures forall i :: 0 <= i < |df| ==> df[i].rating <= m
    ensures exists i :: 0 <= i < |df| && df[i].rating == m
  {
    if |df| == 1 then df[0].rating
    else
      var rest := MaxRating(df[1..]);
      assert forall i :: 1 <= i < |df| ==> df[i] == df[1..][i - 1];
      if df[0].rating >= rest then df[0].rating else rest
  }

  /** In an increasing sequence of naturals the element at `k` is at least `k`, and gaps add up. */
  lemma {:induction false} IncreasingGap(xs: seq<nat>, i: nat, j: nat)
    requires Increasing(xs)
    requires i <= j < |xs|
    decreases j - i
    ensures xs[j] - xs[i] >= j - i
  {
    if i < j {
      IncreasingGap(xs, i, j - 1);
    }
  }

  /** When rows 0..k all belong to `movie`, the movie's row list starts 0, 1, ..., k. */
  lemma {:induction false} PrefixRowsListed(df: seq<Critique>, movie: string, k: nat)
    requires k < |df|
    requires forall i :: 0 <= i <= k ==> df[i].movieTitle == movie
    ensures k < |MovieIndices(df, movie)|
    ensures forall i :: 0 <= i <= k ==> MovieIndices(df, movie)[i] == i
  {
    var block := MovieIndices(df, movie);
    if k > 0 {
      PrefixRowsListed(df, movie, k - 1);
    }
    assert k in block;
    var q :| 0 <= q < |block| && block[q] == k;
    IncreasingGap(block, 0, q);
    if k > 0 {
      assert block[k - 1] == k - 1;
    }
    assert q == k;
  }

  /**
    The first `n + 1` rows all belong to `movie` exactly when entry `n` of the
    movie's row list is row `n`.
   */
  lemma BlockStartsAtZero(df: seq<Critique>, movie: string, n: nat)
    requires n < |df|
    requires n < |MovieIndices(df, movie)|
    ensures MovieIndices(df, movie)[n] == n
        <==> forall i :: 0 <= i <= n ==> df[i].movieTitle == movie
  {
    var block := MovieIndices(df, movie);
    if block[n] == n {
      forall i | 0 <= i <= n ensures df[i].movieTitle == movie {
        IncreasingGap(block, i, n);
        IncreasingGap(block, 0, i);
        assert block[i] == i;
      }
    }
    if forall i :: 0 <= i <= n ==> df[i].movieTitle == movie {
      PrefixRowsListed(df, movie, n);
      assert block[n] == n;
    }
  }
}

=== FILE: options.dfy ===
/** An optional value: the absence of a match or of a row. */
module Options {

  datatype Option<T> = None | Some(value: T)
}

=== FILE: ranking.dfy ===
/**
  `get_similar_reviews` (recommandation_critiques.py, lines 47-102), with the
  TF-IDF cosine similarity between corpus rows given as the parameter `sim`.

  Pipeline, as the code runs it:
  1. look the id up; a missing id yields the "introuvable" message (59-60);
  2. `idx` is the first row with that id; `block` lists the rows of its movie (63-69);
  3. `sim_scores[k]` is the similarity of row `idx` to row `block[k]` (72);
  4. entry number `idx` of that per-movie vector is set to 0 (75): `idx` is a
     row of the whole table, used here as a position inside the block;
  5. optionally the rating blend (78-81);
  6. the top `top_n` positions by score (84), their rows with their scores (91-94);
  7. those rows sorted by (similarity, like count), both descending (97);
  8. the reference row, with similarity 1.0, in front (87-88, 100).

  Step 6 depends on the type `sim_scores` has at line 94. Without rating it is
  a numpy array and `sim_scores[top_indices]` reads positions. With rating,
  line 81 adds a pandas Series labelled by the movie's row numbers, so the
  result is such a Series: `sim_scores[top_indices]` then looks the positions
  up as LABELS, and the column assignment aligns the result by label.
 */
module Ranking {
  import opened Options
  import opened Sorting
  import opened Corpus
  import opened Scoring

  /** One result row: the critique's columns and its `similarity`, `None` standing for NaN. */
  datatype Row = Row(review: Critique, similarity: Option<real>)

  /** What `get_similar_reviews` hands back. */
  datatype Outcome =
    | Introuvable(critiqueId: int)          // the string "Critique <id> introuvable"
    | IndexError(index: nat, size: nat)     // numpy's IndexError at line 75
    | KeyError(missing: seq<nat>)           // pandas' KeyError at line 94: labels not in the index
    | Ranked(rows: seq<Row>)                // the result DataFrame, row by row

  /** The order of line 97: similarity first (NaN last), like count second. */
  function RowKey(r: Row): Key {
    Key(r.similarity, r.review.likeCount)
  }

  /** `a` has a similarity, and it is at least that of `b`. */
  predicate Outscores(a: Row, b: Row) {
    a.similarity.Some? && b.similarity.Some? && a.similarity.value >= b.similarity.value
  }

  /** Length of Python's `xs[:stop]` for a sequence of length `n`. */
  function SliceLength(n: nat, stop: int): (len: nat)
    ensures len <= n
  {
    if stop >= 0 then (if stop < n then stop else n)
    else if n + stop > 0 then n + stop else 0
  }

  /** The positions `xs[:stop]` keeps of a sequence of length `n`: a negative `stop` counts from the end. */
  ghost function SliceKeeps(n: nat, stop: int): set<nat> {
    set k | k in Range(n) && (if stop >= 0 then k < stop else k < n + stop)
  }

  /** The numbers below `m`, counted one by one. */
  ghost function Below(m: nat): (b: set<nat>)
    ensures |b| == m
    ensures forall x: nat :: x in b <==> x < m
  {
    if m == 0 then {} else Below(m - 1) + {m - 1}
  }

  /** `SliceLength` counts exactly the positions the slice keeps. */
  lemma SliceLengthCounts(n: nat, stop: int)
    ensures SliceLength(n, stop) == |SliceKeeps(n, stop)|
  {
    forall x: nat ensures x in SliceKeeps(n, stop) <==> x in Below(SliceLength(n, stop)) {
      if x < n {
        assert Range(n)[x] == x;
      }
    }
    assert SliceKeeps(n, stop) == Below(SliceLength(n, stop));
  }

  /** The positions 0, 1, ..., n - 1. */
  function Range(n: nat): (r: seq<nat>)
    ensures |r| == n
    ensures forall k :: 0 <= k < n ==> r[k] == k
  {
    if n == 0 then [] else Range(n - 1) + [n - 1]
  }

  /** Position of `x` in `xs`. */
  function IndexOf(xs: seq<nat>, x: nat): (p: nat)
    requires x in xs
    ensures p < |xs| && xs[p] == x
  {
    if xs[0] == x then 0 else 1 + IndexOf(xs[1..], x)
  }

  /** `xs[ps]`: the elements of `xs` at the positions `ps`, in that order. */
  function Gather<T>(xs: seq<T>, ps: seq<nat>): (r: seq<T>)
    requires forall k :: 0 <= k < |ps| ==> ps[k] < |xs|
    ensures |r| == |ps|
    ensures forall k :: 0 <= k < |ps| ==> r[k] == xs[ps[k]]
  {
    seq(|ps|, k requires 0 <= k < |ps| => xs[ps[k]])
  }

  // ---------------------------------------------------------------------
  // Line 84: `sim_scores.argsort()[::-1][:top_n]`

  /** A permutation of 0, 1, ..., n - 1 holds each of those positions exactly once. */
  lemma PermutationOfRange(order: seq<nat>, n: nat)
    requires multiset(order) == multiset(Range(n))
    ensures |order| == n
    ensures NoDup(order)
    ensures forall k :: 0 <= k < |order| ==> order[k] < n
  {
    assert |order| == |multiset(order)| == n;
    forall k | 0 <= k < |order| ensures order[k] < n {
      assert order[k] in multiset(Range(n));
    }
    assert NoDup(Range(n));
    PermutationNoDup(Range(n), order);
  }

  /** Sorting positions by the key `Key(Some(scores[k]), 0)` sorts them by score. */
  lemma SortedByScore(scores: seq<real>, order: seq<nat>, key: nat -> Key)
    requires forall k :: 0 <= k < |order| ==> order[k] < |scores|
    requires forall k: nat :: k < |scores| ==> key(k) == Key(Some(scores[k]), 0)
    requires SortedDesc(order, key)
    ensures forall i, j :: 0 <= i < j < |order| ==> scores[order[i]] >= scores[order[j]]
  {
    forall i, j | 0 <= i < j < |order| ensures scores[order[i]] >= scores[order[j]] {
      assert AtLeast(key(order[i]), key(order[j]));
    }
  }

  /** `scores.argsort()[::-1]`: every position once, by non-increasing score. */
  function ArgsortDesc(scores: seq<real>): (order: seq<nat>)
    ensures |order| == |scores|
    ensures multiset(order) == multiset(Range(|scores|))
    ensures NoDup(order)
    ensures forall k :: 0 <= k < |order| ==> order[k] < |scores|
    ensures forall i, j :: 0 <= i < j < |order| ==> scores[order[i]] >= scores[order[j]]
  {
    var n := |scores|;
    var key := (k: nat) => if k < n then Key(Some(scores[k]), 0) else Key(None, 0);
    var order := SortDesc<nat>(Range(n), key);
    PermutationOfRange(order, n);
    SortedByScore(scores, order, key);
    order
  }

  /** A prefix of a descending argsort scores at least as high as every position left out of it. */
  lemma PrefixDominates(scores: seq<real>, order: seq<nat>, c: nat)
    requires c <= |order|
    requires multiset(order) == multiset(Range(|scores|))
    requires forall k :: 0 <= k < |order| ==> order[k] < |scores|
    requires forall i, j :: 0 <= i < j < |order| ==> scores[order[i]] >= scores[order[j]]
    ensures forall k, u :: 0 <= k < c && 0 <= u < |scores| && u !in order[..c] ==> scores[order[k]] >= scores[u]
  {
    forall k, u | 0 <= k < c && 0 <= u < |scores| && u !in order[..c] ensures scores[order[k]] >= scores[u] {
      assert Range(|scores|)[u] == u;
      assert u in multiset(order);
      var p :| 0 <= p < |order| && order[p] == u;
    }
  }

  /** A permutation of 0, 1, ..., n - 1 contains each of them. */
  lemma PermutationCoversRange(order: seq<nat>, n: nat)
    requires multiset(order) == multiset(Range(n))
    ensures forall u :: 0 <= u < n ==> u in order
  {
    forall u | 0 <= u < n ensures u in order {
      assert Range(n)[u] == u;
      assert u in multiset(order);
    }
  }

  /** When the cut keeps the whole permutation, it keeps every position. */
  lemma FullPrefixCovers(order: seq<nat>, n: nat, c: nat, whole: bool)
    requires multiset(order) == multiset(Range(n))
    requires c <= |order|
    requires whole ==> c == n
    ensures whole ==> forall u :: 0 <= u < n ==> u in order[..c]
  {
    PermutationCoversRange(order, n);
    assert |order| == |multiset(order)| == n;
    assert c == n ==> order[..c] == order;
  }

  /** A prefix of a descending argsort is duplicate-free, in range and by non-increasing score. */
  lemma ArgsortPrefix(scores: seq<real>, order: seq<nat>, c: nat)
    requires c <= |order|
    requires NoDup(order)
    requires forall k :: 0 <= k < |order| ==> order[k] < |scores|
    requires forall i, j :: 0 <= i < j < |order| ==> scores[order[i]] >= scores[order[j]]
    ensures NoDup(order[..c])
    ensures forall k :: 0 <= k < c ==> order[..c][k] < |scores|
    ensures forall i, j :: 0 <= i < j < c ==> scores[order[..c][i]] >= scores[order[..c][j]]
  {
    assert forall k :: 0 <= k < c ==> order[..c][k] == order[k];
  }

  /** `argsort()[::-1][:top_n]`: positions of the `top_n` highest scores. */
  function TopIndices(scores: seq<real>, topN: int): (top: seq<nat>)
    ensures |top| == SliceLength(|scores|, topN)
    ensures NoDup(top)
    ensures forall k :: 0 <= k < |top| ==> top[k] < |scores|
    ensures forall i, j :: 0 <= i < j < |top| ==> scores[top[i]] >= scores[top[j]]
    ensures forall k, u :: 0 <= k < |top| && 0 <= u < |scores| && u !in top ==> scores[top[k]] >= scores[u]
    ensures topN >= |scores| ==> forall u :: 0 <= u < |scores| ==> u in top
  {
    var order := ArgsortDesc(scores);
    var c := SliceLength(|scores|, topN);
    ArgsortPrefix(scores, order, c);
    PrefixDominates(scores, order, c);
    FullPrefixCovers(order, |scores|, c, topN >= |scores|);
    order[..c]
  }

  /** Taking out one occurrence of the same position from two permutations leaves permutations. */
  lemma RemoveOne(ps: seq<nat>, qs: seq<nat>, j: nat)
    requires |ps| > 0
    requires j < |qs| && qs[j] == ps[0]
    requires multiset(ps) == multiset(qs)
    ensures multiset(ps[1..]) == multiset(qs[..j] + qs[j + 1..])
  {
    var rest := qs[..j] + qs[j + 1..];
    assert ps == [ps[0]] + ps[1..];
    assert qs == qs[..j] + [qs[j]] + qs[j + 1..];
    assert multiset(ps) == multiset{ps[0]} + multiset(ps[1..]);
    assert multiset(qs) == multiset(qs[..j]) + multiset{qs[j]} + multiset(qs[j + 1..]);
    assert multiset(rest) == multiset(qs[..j]) + multiset(qs[j + 1..]);
    forall x ensures multiset(ps[1..])[x] == multiset(rest)[x] {
      assert multiset(ps)[x] == multiset(qs)[x];
    }
  }

  /** Gathering at two permutations of the same positions gives permutations of each other. */
  lemma {:induction false} GatherPermutation<T>(xs: seq<T>, ps: seq<nat>, qs: seq<nat>)
    requires forall k :: 0 <= k < |ps| ==> ps[k] < |xs|
    requires forall k :: 0 <= k < |qs| ==> qs[k] < |xs|
    requires multiset(ps) == multiset(qs)
    ensures multiset(Gather(xs, ps)) == multiset(Gather(xs, qs))
    decreases |ps|
  {
    if |ps| == 0 {
      assert |qs| == |multiset(qs)| == 0;
    } else {
      var p := ps[0];
      assert p in multiset(qs);
      var j :| 0 <= j < |qs| && qs[j] == p;
      var front, back := qs[..j], qs[j + 1..];
      assert forall k :: 0 <= k < |front + back| ==> (front + back)[k] < |xs|;
      RemoveOne(ps, qs, j);
      GatherPermutation(xs, ps[1..], front + back);
      var g1, gf, gb := Gather(xs, ps[1..]), Gather(xs, front), Gather(xs, back);
      assert Gather(xs, ps) == [xs[p]] + g1;
      assert Gather(xs, qs) == gf + [xs[p]] + gb;
      assert Gather(xs, front + back) == gf + gb;
      assert multiset(Gather(xs, ps)) == multiset{xs[p]} + multiset(g1);
      assert multiset(Gather(xs, qs)) == multiset(gf) + multiset{xs[p]} + multiset(gb);
    }
  }

  /** Gathering at every position in order gives the sequence back. */
  lemma GatherRange<T>(xs: seq<T>)
    ensures Gather(xs, Range(|xs|)) == xs
  {
  }

  /** Gathering at a permutation of all positions permutes the sequence. */
  lemma GatherPermutationOfAll<T>(xs: seq<T>, order: seq<nat>)
    requires multiset(order) == multiset(Range(|xs|))
    requires forall k :: 0 <= k < |order| ==> order[k] < |xs|
    ensures multiset(Gather(xs, order)) == multiset(xs)
  {
    var all := Range(|xs|);
    assert forall k :: 0 <= k < |all| ==> all[k] < |xs|;
    GatherRange(xs);
    GatherPermutation(xs, order, all);
  }

  /** A prefix holds part of the elements. */
  lemma PrefixSubMultiset<T>(g: seq<T>, c: nat)
    requires c <= |g|
    ensures multiset(g[..c]) <= multiset(g)
  {
    assert g == g[..c] + g[c..];
    assert multiset(g) == multiset(g[..c]) + multiset(g[c..]);
  }

  /** Gathering at a prefix of the positions is the prefix of the gathering. */
  lemma GatherPrefix<T>(xs: seq<T>, order: seq<nat>, c: nat)
    requires forall k :: 0 <= k < |order| ==> order[k] < |xs|
    requires c <= |order|
    ensures Gather(xs, order[..c]) == Gather(xs, order)[..c]
  {
  }

  /** The elements at a prefix of a permutation of all positions are a sub-multiset of the whole. */
  lemma PrefixGatherSubMultiset<T>(xs: seq<T>, order: seq<nat>, c: nat)
    requires multiset(order) == multiset(Range(|xs|))
    requires forall k :: 0 <= k < |order| ==> order[k] < |xs|
    requires c <= |order|
    ensures multiset(Gather(xs, order[..c])) <= multiset(xs)
  {
    GatherPermutationOfAll(xs, order);
    GatherPrefix(xs, order, c);
    PrefixSubMultiset(Gather(xs, order), c);
  }

  /** The entries at the `top_n` positions are distinct entries: a sub-multiset. */
  lemma TopGatherSubMultiset<T>(xs: seq<T>, scores: seq<real>, topN: int)
    requires |xs| == |scores|
    ensures multiset(Gather(xs, TopIndices(scores, topN))) <= multiset(xs)
  {
    PrefixGatherSubMultiset(xs, ArgsortDesc(scores), SliceLength(|scores|, topN));
  }

  // ---------------------------------------------------------------------
  // Lines 72-81: the score vector

  /** The lexical similarity of the reference row `idx` to each row of its movie (line 72). */
  function Lexical(df: seq<Critique>, sim: (nat, nat) -> real, idx: nat): (s: seq<real>)
    requires idx < |df|
    ensures |s| == |MovieIndices(df, df[idx].movieTitle)|
    ensures forall k :: 0 <= k < |s| ==> s[k] == sim(idx, MovieIndices(df, df[idx].movieTitle)[k])
  {
    var block := MovieIndices(df, df[idx].movieTitle);
    seq(|block|, k requires 0 <= k < |block| => sim(idx, block[k]))
  }

  /** `rating_score` of lines 79-80 for each row of the reference's movie. */
  function Proximity(df: seq<Critique>, idx: nat): (s: seq<real>)
    requires idx < |df|
    requires MaxRating(df) > 0.0
    ensures |s| == |MovieIndices(df, df[idx].movieTitle)|
    ensures forall k :: 0 <= k < |s| ==>
      s[k] == RatingScore(df[MovieIndices(df, df[idx].movieTitle)[k]].rating, df[idx].rating, MaxRating(df))
  {
    var block := MovieIndices(df, df[idx].movieTitle);
    seq(|block|, k requires 0 <= k < |block| => RatingScore(df[block[k]].rating, df[idx].rating, MaxRating(df)))
  }

  /**
    `sim_scores` as it reaches line 84. Without rating: the similarity of each
    row of the movie to the reference, entry `slot` set to 0. With rating:
    `(1 - w) * that + w * (1 - |r - r_ref| / max rating)`, entry by entry.
   */
  function BlockScores(df: seq<Critique>, sim: (nat, nat) -> real, idx: nat, slot: nat, useRating: bool, w: real): (s: seq<real>)
    requires idx < |df|
    requires slot < |MovieIndices(df, df[idx].movieTitle)|
    requires useRating ==> MaxRating(df) > 0.0
    ensures |s| == |MovieIndices(df, df[idx].movieTitle)|
    ensures !useRating ==>
      var block := MovieIndices(df, df[idx].movieTitle);
      && s[slot] == 0.0
      && forall k :: 0 <= k < |block| && k != slot ==> s[k] == sim(idx, block[k])
    ensures useRating ==>
      var block := MovieIndices(df, df[idx].movieTitle);
      forall k :: 0 <= k < |block| ==>
        s[k] == Mix(if k == slot then 0.0 else sim(idx, block[k]),
                    RatingScore(df[block[k]].rating, df[idx].rating, MaxRating(df)), w)
  {
    var zeroed := Lexical(df, sim, idx)[slot := 0.0];
    if useRating then Blend(zeroed, Proximity(df, idx), w) else zeroed
  }

  // ---------------------------------------------------------------------
  // Lines 84-100 with scores attached by position

  /** Every row of the movie with its score, in row order: what line 94 attaches by position. */
  function Candidates(df: seq<Critique>, block: seq<nat>, scores: seq<real>): (c: seq<Row>)
    requires forall k :: 0 <= k < |block| ==> block[k] < |df|
    requires |scores| == |block|
    ensures |c| == |block|
    ensures forall u :: 0 <= u < |block| ==> c[u] == Row(df[block[u]], Some(scores[u]))
  {
    seq(|block|, u requires 0 <= u < |block| => Row(df[block[u]], Some(scores[u])))
  }

  /**
    `rows` is what `[:top_n]` of a best-first order keeps of `candidates`: as
    many rows as the slice, each a distinct candidate, and no candidate left
    out scoring above a row kept.
   */
  ghost predicate SelectsTop(rows: seq<Row>, candidates: seq<Row>, topN: int) {
    && |rows| == SliceLength(|candidates|, topN)
    && multiset(rows) <= multiset(candidates)
    && forall t, u :: 0 <= t < |rows| && 0 <= u < |candidates| && candidates[u] !in rows ==>
         Outscores(rows[t], candidates[u])
  }

  /** `row` is a critique of the movie carrying that critique's own score, or NaN. */
  ghost predicate CarriesOwnScore(df: seq<Critique>, block: seq<nat>, scores: seq<real>, row: Row) {
    exists u :: (0 <= u < |block| && u < |scores| && block[u] < |df| && row.review == df[block[u]]
      && (row.similarity.None? || row.similarity == Some(scores[u])))
  }

  /** Every one of `rows` carries its own score, or NaN. */
  ghost predicate AllCarryOwnScore(df: seq<Critique>, block: seq<nat>, scores: seq<real>, rows: seq<Row>) {
    forall t :: 0 <= t < |rows| ==> CarriesOwnScore(df, block, scores, rows[t])
  }

  /** A top-`n` selection of the candidates holds candidates only, so each row carries its own score. */
  lemma SelectedCarryOwnScores(df: seq<Critique>, block: seq<nat>, scores: seq<real>, rows: seq<Row>, topN: int)
    requires forall k :: 0 <= k < |block| ==> block[k] < |df|
    requires |scores| == |block|
    requires SelectsTop(rows, Candidates(df, block, scores), topN)
    ensures AllCarryOwnScore(df, block, scores, rows)
  {
    var candidates := Candidates(df, block, scores);
    forall t | 0 <= t < |rows| ensures CarriesOwnScore(df, block, scores, rows[t]) {
      var x := rows[t];
      assert multiset(rows)[x] > 0;
      assert multiset(candidates)[x] > 0;
      assert x in candidates;
      var u :| 0 <= u < |candidates| && candidates[u] == x;
      assert x == Row(df[block[u]], Some(scores[u]));
    }
  }

  /** Any reordering of the candidates at the top positions is a top-`n` selection of them. */
  lemma ReorderedPickSelectsTop(candidates: seq<Row>, scores: seq<real>, topN: int, ys: seq<Row>)
    requires |candidates| == |scores|
    requires forall u :: 0 <= u < |candidates| ==> candidates[u].similarity == Some(scores[u])
    requires multiset(ys) == multiset(Gather(candidates, TopIndices(scores, topN)))
    ensures SelectsTop(ys, candidates, topN)
  {
    var picked := Gather(candidates, TopIndices(scores, topN));
    assert |ys| == |multiset(ys)| == |picked|;
    TopGatherSubMultiset(candidates, scores, topN);
    forall t, u | 0 <= t < |ys| && 0 <= u < |candidates| && candidates[u] !in ys
      ensures Outscores(ys[t], candidates[u])
    {
      assert ys[t] in multiset(picked);
      assert candidates[u] !in multiset(picked);
      PickOutscoresLeftOut(candidates, scores, topN, ys[t], u);
    }
  }

  /** A row at a top position outscores the candidate at a position left out. */
  lemma PickOutscoresLeftOut(candidates: seq<Row>, scores: seq<real>, topN: int, y: Row, u: nat)
    requires |candidates| == |scores|
    requires forall v :: 0 <= v < |candidates| ==> candidates[v].similarity == Some(scores[v])
    requires y in Gather(candidates, TopIndices(scores, topN))
    requires u < |candidates| && candidates[u] !in Gather(candidates, TopIndices(scores, topN))
    ensures Outscores(y, candidates[u])
  {
    var top := TopIndices(scores, topN);
    var picked := Gather(candidates, top);
    var k :| 0 <= k < |picked| && picked[k] == y;
    forall m | 0 <= m < |top| ensures top[m] != u {
      assert picked[m] == candidates[top[m]];
    }
    assert u !in top;
  }

  /** Reordering rows keeps their number and their movie. */
  lemma PermutedRowsOfMovie(xs: seq<Row>, ys: seq<Row>, movie: string)
    requires multiset(xs) == multiset(ys)
    requires forall k :: 0 <= k < |xs| ==> xs[k].review.movieTitle == movie
    ensures |ys| == |xs|
    ensures forall k :: 0 <= k < |ys| ==> ys[k].review.movieTitle == movie
  {
    assert |ys| == |multiset(ys)| == |xs|;
    forall k | 0 <= k < |ys| ensures ys[k].review.movieTitle == movie {
      assert ys[k] in multiset(xs);
    }
  }

  /** The reordered top rows of a movie: the slice's number of them, all of the movie, a top-`n` selection. */
  lemma SortedPickFacts(df: seq<Critique>, block: seq<nat>, scores: seq<real>, topN: int, movie: string, similar: seq<Row>)
    requires forall k :: 0 <= k < |block| ==> block[k] < |df| && df[block[k]].movieTitle == movie
    requires |scores| == |block|
    requires multiset(similar) == multiset(Gather(Candidates(df, block, scores), TopIndices(scores, topN)))
    ensures |similar| == SliceLength(|block|, topN)
    ensures forall k :: 0 <= k < |similar| ==> similar[k].review.movieTitle == movie
    ensures SelectsTop(similar, Candidates(df, block, scores), topN)
  {
    var candidates := Candidates(df, block, scores);
    var picked := Gather(candidates, TopIndices(scores, topN));
    PickedRowsOfMovie(df, block, scores, TopIndices(scores, topN), movie);
    PermutedRowsOfMovie(picked, similar, movie);
    ReorderedPickSelectsTop(candidates, scores, topN, similar);
  }

  /** The candidates at any positions are critiques of the movie. */
  lemma PickedRowsOfMovie(df: seq<Critique>, block: seq<nat>, scores: seq<real>, top: seq<nat>, movie: string)
    requires forall k :: 0 <= k < |block| ==> block[k] < |df| && df[block[k]].movieTitle == movie
    requires |scores| == |block|
    requires forall k :: 0 <= k < |top| ==> top[k] < |block|
    ensures forall k :: 0 <= k < |top| ==> Gather(Candidates(df, block, scores), top)[k].review.movieTitle == movie
  {
  }

  /** Lines 64-100 with entry `slot` zeroed at line 75 and scores attached by position at line 94. */
  function Rank(df: seq<Critique>, sim: (nat, nat) -> real, idx: nat, slot: nat, topN: int, useRating: bool, w: real): (rows: seq<Row>)
    requires idx < |df|
    requires slot < |MovieIndices(df, df[idx].movieTitle)|
    requires useRating ==> MaxRating(df) > 0.0
    ensures |rows| == SliceLength(|MovieIndices(df, df[idx].movieTitle)|, topN) + 1
    ensures rows[0] == Row(df[idx], Some(1.0))
    ensures forall k :: 1 <= k < |rows| ==> rows[k].review.movieTitle == df[idx].movieTitle
    ensures SortedDesc(rows[1..], RowKey)
    ensures SelectsTop(rows[1..],
      Candidates(df, MovieIndices(df, df[idx].movieTitle), BlockScores(df, sim, idx, slot, useRating, w)), topN)
  {
    var block := MovieIndices(df, df[idx].movieTitle);
    var scores := BlockScores(df, sim, idx, slot, useRating, w);
    var similar := SortDesc(Gather(Candidates(df, block, scores), TopIndices(scores, topN)), RowKey);
    SortedPickFacts(df, block, scores, topN, df[idx].movieTitle, similar);
    var rows := [Row(df[idx], Some(1.0))] + similar;
    assert rows[1..] == similar;
    rows
  }

  // ---------------------------------------------------------------------
  // Lines 84-100 with rating, as written: scores looked up and aligned by label

  /** The positions of `top` that are not row numbers of the movie: the labels `.loc` cannot find. */
  function MissingLabels(block: seq<nat>, top: seq<nat>): (m: seq<nat>)
    ensures forall x :: x in m <==> x in top && x !in block
    ensures |m| == 0 <==> forall k :: 0 <= k < |top| ==> top[k] in block
  {
    if |top| == 0 then []
    else
      assert top == [top[0]] + top[1..];
      (if top[0] in block then [] else [top[0]]) + MissingLabels(block, top[1..])
  }

  /**
    The similarity line 94 gives the row labelled `row`. `sim_scores[top]`
    is the Series of `sim_scores.loc[p]`, labelled `p`, for each `p` of `top`;
    the assignment aligns it by label, so the row gets the score looked up
    under its own number, or NaN when its number is not in `top`.
   */
  function AlignedSimilarity(block: seq<nat>, scores: seq<real>, top: seq<nat>, row: nat): Option<real>
    requires |scores| == |block|
    requires forall k :: 0 <= k < |top| ==> top[k] in block
  {
    if row in top then Some(scores[IndexOf(block, row)]) else None
  }

  /**
    A row gets a similarity exactly when its number is a chosen position, and
    that similarity is the score at the row's own place in the movie.
   */
  lemma AlignedSimilarityIsOwnOrNaN(block: seq<nat>, scores: seq<real>, top: seq<nat>, row: nat)
    requires Increasing(block)
    requires |scores| == |block|
    requires forall k :: 0 <= k < |top| ==> top[k] in block
    ensures AlignedSimilarity(block, scores, top, row).Some? <==> row in top
    ensures forall u :: 0 <= u < |block| && block[u] == row && row in top ==>
      AlignedSimilarity(block, scores, top, row) == Some(scores[u])
  {
    forall u | 0 <= u < |block| && block[u] == row && row in top
      ensures AlignedSimilarity(block, scores, top, row) == Some(scores[u])
    {
      IndexOfIncreasing(block, u);
    }
  }

  /** Lines 91-94 under label alignment: the chosen rows, each with its aligned similarity. */
  function LabelledPicks(df: seq<Critique>, block: seq<nat>, scores: seq<real>, top: seq<nat>): (rows: seq<Row>)
    requires forall k :: 0 <= k < |block| ==> block[k] < |df|
    requires |scores| == |block|
    requires forall k :: 0 <= k < |top| ==> top[k] < |block| && top[k] in block
    ensures |rows| == |top|
    ensures forall k :: 0 <= k < |top| ==>
      rows[k] == Row(df[block[top[k]]], AlignedSimilarity(block, scores, top, block[top[k]]))
  {
    seq(|top|, k requires 0 <= k < |top| => Row(df[block[top[k]]], AlignedSimilarity(block, scores, top, block[top[k]])))
  }

  /** In an increasing row list a row number stands at one position only. */
  lemma IndexOfIncreasing(block: seq<nat>, p: nat)
    requires Increasing(block)
    requires p < |block|
    ensures IndexOf(block, block[p]) == p
  {
  }

  /** Each reordered labelled row is a row of the movie carrying its own score, or NaN. */
  lemma LabelledRowsOwnOrNaN(df: seq<Critique>, block: seq<nat>, scores: seq<real>, top: seq<nat>, ys: seq<Row>)
    requires Increasing(block)
    requires forall k :: 0 <= k < |block| ==> block[k] < |df|
    requires |scores| == |block|
    requires forall k :: 0 <= k < |top| ==> top[k] < |block| && top[k] in block
    requires multiset(ys) == multiset(LabelledPicks(df, block, scores, top))
    ensures |ys| == |top|
    ensures AllCarryOwnScore(df, block, scores, ys)
  {
    var picks := LabelledPicks(df, block, scores, top);
    assert |ys| == |multiset(ys)| == |picks|;
    forall t | 0 <= t < |ys| ensures CarriesOwnScore(df, block, scores, ys[t]) {
      assert ys[t] in multiset(picks);
      var k :| 0 <= k < |picks| && picks[k] == ys[t];
      IndexOfIncreasing(block, top[k]);
      assert ys[t].review == df[block[top[k]]];
    }
  }

  /** On a movie whose rows are 0, 1, ..., n - 1 the labels are the positions, so alignment attaches every row's own score. */
  lemma LabelsArePositions(df: seq<Critique>, block: seq<nat>, scores: seq<real>, top: seq<nat>)
    requires block == Range(|block|)
    requires forall k :: 0 <= k < |block| ==> block[k] < |df|
    requires |scores| == |block|
    requires forall k :: 0 <= k < |top| ==> top[k] < |block|
    ensures forall k :: 0 <= k < |top| ==> top[k] in block
    ensures LabelledPicks(df, block, scores, top) == Gather(Candidates(df, block, scores), top)
  {
    forall k | 0 <= k < |top| ensures top[k] in block {
      assert block[top[k]] == top[k];
    }
    forall k | 0 <= k < |top|
      ensures LabelledPicks(df, block, scores, top)[k] == Gather(Candidates(df, block, scores), top)[k]
    {
      assert block[top[k]] == top[k];
      assert top[k] in top;
      assert IndexOf(block, top[k]) == top[k];
    }
  }

  /**
    `rows` are, in some order, the rows line 94 yields under label alignment:
    every chosen position is a label, and each chosen position gives its
    critique with the aligned similarity.
   */
  ghost predicate PicksByLabel(df: seq<Critique>, block: seq<nat>, scores: seq<real>, topN: int, rows: seq<Row>) {
    var top := TopIndices(scores, topN);
    && (forall k :: 0 <= k < |block| ==> block[k] < |df|)
    && |scores| == |block|
    && (forall k :: 0 <= k < |top| ==> top[k] in block)
    && multiset(rows) == multiset(LabelledPicks(df, block, scores, top))
  }

  /**
    Lines 84-100 with rating, as written, for the reference row `idx`, the
    movie's row list `block` (the Series' labels) and the score vector
    `scores`: `KeyError` when a chosen position is not a label; otherwise each
    chosen row with its aligned similarity, sorted with NaN last, after the
    reference row.
   */
  function RankByLabel(df: seq<Critique>, idx: nat, block: seq<nat>, scores: seq<real>, topN: int): (r: Outcome)
    requires idx < |df|
    requires Increasing(block)
    requires forall k :: 0 <= k < |block| ==> block[k] < |df|
    requires |scores| == |block|
    ensures r.KeyError? || r.Ranked?
    ensures
      var top := TopIndices(scores, topN);
      && (r.KeyError? <==> exists k :: 0 <= k < |top| && top[k] !in block)
      && (r.KeyError? ==> forall x :: x in r.missing <==> x in top && x !in block)
    ensures r.Ranked? ==>
      && |r.rows| == SliceLength(|block|, topN) + 1
      && r.rows[0] == Row(df[idx], Some(1.0))
      && SortedDesc(r.rows[1..], RowKey)
      && AllCarryOwnScore(df, block, scores, r.rows[1..])
    ensures r.Ranked? ==> PicksByLabel(df, block, scores, topN, r.rows[1..])
    ensures block == Range(|block|) ==> r.Ranked? && SelectsTop(r.rows[1..], Candidates(df, block, scores), topN)
  {
    var top := TopIndices(scores, topN);
    var missing := MissingLabels(block, top);
    RangeLabelsFound(block, top);
    if |missing| > 0 then
      assert missing[0] in missing;
      KeyError(missing)
    else
      var similar := SortDesc(LabelledPicks(df, block, scores, top), RowKey);
      LabelledRanking(df, block, scores, topN, top, similar);
      var rows := [Row(df[idx], Some(1.0))] + similar;
      assert rows[1..] == similar;
      Ranked(rows)
  }

  /** When the movie's rows are 0, 1, ..., n - 1, every position is a label. */
  lemma RangeLabelsFound(block: seq<nat>, top: seq<nat>)
    requires forall k :: 0 <= k < |top| ==> top[k] < |block|
    ensures block == Range(|block|) ==> |MissingLabels(block, top)| == 0
  {
    if block == Range(|block|) {
      forall k | 0 <= k < |top| ensures top[k] in block {
        assert block[top[k]] == top[k];
      }
    }
  }

  /**
    The labelled picks sorted: one per chosen position, each with its own
    score or NaN, and, when the labels are the positions, the positional rows,
    hence a top-`n` selection.
   */
  lemma LabelledRanking(df: seq<Critique>, block: seq<nat>, scores: seq<real>, topN: int, top: seq<nat>, similar: seq<Row>)
    requires Increasing(block)
    requires forall k :: 0 <= k < |block| ==> block[k] < |df|
    requires |scores| == |block|
    requires top == TopIndices(scores, topN)
    requires forall k :: 0 <= k < |top| ==> top[k] in block
    requires similar == SortDesc(LabelledPicks(df, block, scores, top), RowKey)
    ensures |similar| == |top|
    ensures AllCarryOwnScore(df, block, scores, similar)
    ensures block == Range(|block|) ==> SelectsTop(similar, Candidates(df, block, scores), topN)
  {
    LabelledRowsOwnOrNaN(df, block, scores, top, similar);
    if block == Range(|block|) {
      PositionalLabelledRanking(df, block, scores, topN, top, similar);
    }
  }

  /** The range case of `LabelledRanking`: the labelled picks are the positional ones. */
  lemma PositionalLabelledRanking(df: seq<Critique>, block: seq<nat>, scores: seq<real>, topN: int, top: seq<nat>, similar: seq<Row>)
    requires block == Range(|block|)
    requires forall k :: 0 <= k < |block| ==> block[k] < |df|
    requires |scores| == |block|
    requires top == TopIndices(scores, topN)
    requires forall k :: 0 <= k < |top| ==> top[k] in block
    requires similar == SortDesc(LabelledPicks(df, block, scores, top), RowKey)
    ensures similar == SortDesc(Gather(Candidates(df, block, scores), top), RowKey)
    ensures SelectsTop(similar, Candidates(df, block, scores), topN)
  {
    LabelsArePositions(df, block, scores, top);
    SortedTopSelects(df, block, scores, topN, similar);
  }

  /** The candidates at the top positions, sorted, are a top-`n` selection of the candidates. */
  lemma SortedTopSelects(df: seq<Critique>, block: seq<nat>, scores: seq<real>, topN: int, similar: seq<Row>)
    requires forall k :: 0 <= k < |block| ==> block[k] < |df|
    requires |scores| == |block|
    requires similar == SortDesc(Gather(Candidates(df, block, scores), TopIndices(scores, topN)), RowKey)
    ensures SelectsTop(similar, Candidates(df, block, scores), topN)
  {
    ReorderedPickSelectsTop(Candidates(df, block, scores), scores, topN, similar);
  }

  /**
    On a movie whose rows are 0, 1, ..., n - 1 the rating path as written
    gives exactly the positional ranking.
   */
  lemma LabelsMatchPositions(df: seq<Critique>, sim: (nat, nat) -> real, idx: nat, slot: nat, topN: int, w: real)
    requires idx < |df|
    requires slot < |MovieIndices(df, df[idx].movieTitle)|
    requires MaxRating(df) > 0.0
    requires MovieIndices(df, df[idx].movieTitle) == Range(|MovieIndices(df, df[idx].movieTitle)|)
    ensures
      var block := MovieIndices(df, df[idx].movieTitle);
      RankByLabel(df, idx, block, BlockScores(df, sim, idx, slot, true, w), topN) == Ranked(Rank(df, sim, idx, slot, topN, true, w))
  {
    var block := MovieIndices(df, df[idx].movieTitle);
    var scores := BlockScores(df, sim, idx, slot, true, w);
    var top := TopIndices(scores, topN);
    RangeLabelsFound(block, top);
    assert forall k :: 0 <= k < |top| ==> top[k] in block;
    var similar := SortDesc(LabelledPicks(df, block, scores, top), RowKey);
    PositionalLabelledRanking(df, block, scores, topN, top, similar);
  }

  /**
    When `top_n` covers the movie and the movie's first row is not row 0,
    position 0 is chosen but is no label of the Series: the rating path raises
    `KeyError`.
   */
  lemma LabelLookupFailsOffStart(df: seq<Critique>, idx: nat, block: seq<nat>, scores: seq<real>, topN: int)
    requires idx < |df|
    requires Increasing(block)
    requires forall k :: 0 <= k < |block| ==> block[k] < |df|
    requires |scores| == |block|
    requires topN >= |block| > 0
    requires block[0] != 0
    ensures RankByLabel(df, idx, block, scores, topN).KeyError?
  {
    var top := TopIndices(scores, topN);
    assert 0 in top;
    var k :| 0 <= k < |top| && top[k] == 0;
    forall q | 0 <= q < |block| ensures block[q] != 0 {
      if q > 0 {
        assert block[0] < block[q];
      }
    }
  }

  /**
    A movie at rows 1, 2, 3 with scores 0.1, 0.9, 0.5 and `top_n = 2`: positions
    1 and 2 are chosen and both are labels, so nothing is raised; the critiques
    kept are those at positions 1 and 2 (rows 2 and 3), but by label row 2 gets
    position 1's score and row 3 gets NaN.
   */
  lemma LabelLookupMisalignsOffStart(df: seq<Critique>, idx: nat)
    requires |df| == 4 && idx < |df|
    ensures RankByLabel(df, idx, [1, 2, 3], [0.1, 0.9, 0.5], 2)
      == Ranked([Row(df[idx], Some(1.0)), Row(df[2], Some(0.9)), Row(df[3], None)])
  {
    ExampleLabelsFound();
    ExampleTopPicks(df);
    TwoPicksRanked(df, idx, [1, 2, 3], [0.1, 0.9, 0.5], 2, Row(df[2], Some(0.9)), Row(df[3], None));
  }

  /** When the label lookup finds two rows whose keys are strictly ordered, the ranking is fixed. */
  lemma TwoPicksRanked(df: seq<Critique>, idx: nat, block: seq<nat>, scores: seq<real>, topN: int, a: Row, b: Row)
    requires idx < |df|
    requires Increasing(block)
    requires forall k :: 0 <= k < |block| ==> block[k] < |df|
    requires |scores| == |block|
    requires forall k :: 0 <= k < |TopIndices(scores, topN)| ==> TopIndices(scores, topN)[k] in block
    requires LabelledPicks(df, block, scores, TopIndices(scores, topN)) == [a, b]
    requires !AtLeast(RowKey(b), RowKey(a))
    ensures RankByLabel(df, idx, block, scores, topN) == Ranked([Row(df[idx], Some(1.0)), a, b])
  {
    PinnedRanking(RankByLabel(df, idx, block, scores, topN), Row(df[idx], Some(1.0)), a, b);
  }

  /** A ranking led by `x` whose two trailing rows are `a` and `b` sorted, with `a` strictly first, is `[x, a, b]`. */
  lemma PinnedRanking(r: Outcome, x: Row, a: Row, b: Row)
    requires r.Ranked? && |r.rows| > 0 && r.rows[0] == x
    requires multiset(r.rows[1..]) == multiset([a, b])
    requires SortedDesc(r.rows[1..], RowKey)
    requires !AtLeast(RowKey(b), RowKey(a))
    ensures r == Ranked([x, a, b])
  {
    SortedPair(r.rows[1..], a, b, RowKey);
    assert r.rows == [r.rows[0]] + r.rows[1..];
  }

  /** The example's chosen positions are both labels of the movie's rows 1, 2, 3. */
  lemma ExampleLabelsFound()
    ensures Increasing([1, 2, 3])
    ensures forall k :: 0 <= k < |TopIndices([0.1, 0.9, 0.5], 2)| ==> TopIndices([0.1, 0.9, 0.5], 2)[k] in [1, 2, 3]
  {
    TopOfExample();
  }

  /** The example's picks at its chosen positions. */
  lemma ExampleTopPicks(df: seq<Critique>)
    requires |df| == 4
    ensures forall k :: 0 <= k < |TopIndices([0.1, 0.9, 0.5], 2)| ==> TopIndices([0.1, 0.9, 0.5], 2)[k] in [1, 2, 3]
    ensures LabelledPicks(df, [1, 2, 3], [0.1, 0.9, 0.5], TopIndices([0.1, 0.9, 0.5], 2))
      == [Row(df[2], Some(0.9)), Row(df[3], None)]
  {
    ExampleLabelsFound();
    TopOfExample();
    ExamplePicks(df);
  }

  /** The example's picks by label: row 2 with position 1's score, row 3 with NaN. */
  lemma ExamplePicks(df: seq<Critique>)
    requires |df| == 4
    ensures LabelledPicks(df, [1, 2, 3], [0.1, 0.9, 0.5], [1, 2]) == [Row(df[2], Some(0.9)), Row(df[3], None)]
  {
    var block: seq<nat> := [1, 2, 3];
    var top: seq<nat> := [1, 2];
    assert block[1..] == [2, 3];
    assert IndexOf(block, 2) == 1;
    assert 3 !in top;
    assert AlignedSimilarity(block, [0.1, 0.9, 0.5], top, 2) == Some(0.9);
    assert AlignedSimilarity(block, [0.1, 0.9, 0.5], top, 3) == None;
  }

  /** The top two positions of the scores 0.1, 0.9, 0.5 are 1 then 2. */
  lemma TopOfExample()
    ensures TopIndices([0.1, 0.9, 0.5], 2) == [1, 2]
  {
    var scores := [0.1, 0.9, 0.5];
    var top := TopIndices(scores, 2);
    assert |top| == 2 && top[0] != top[1];
    var left := 3 - top[0] - top[1];
    assert 0 <= left < 3 && left !in top;
    assert scores[top[0]] >= scores[left] && scores[top[1]] >= scores[left];
    assert left == 0;
    assert scores[top[0]] >= scores[top[1]];
  }

  // ---------------------------------------------------------------------
  // The whole function

  /** `get_similar_reviews(critique_id, top_n, use_rating, rating_weight)` as written. */
  function SimilarReviews(df: seq<Critique>, sim: (nat, nat) -> real, critiqueId: int, topN: int, useRating: bool, ratingWeight: real): (r: Outcome)
    requires useRating && FindId(df, critiqueId).Some? ==> MaxRating(df) > 0.0
    ensures r.Introuvable? <==> forall i :: 0 <= i < |df| ==> df[i].id != critiqueId
    ensures r.Introuvable? ==> r.critiqueId == critiqueId
    ensures r.IndexError? <==>
      FindId(df, critiqueId).Some?
      && FindId(df, critiqueId).value >= |MovieIndices(df, df[FindId(df, critiqueId).value].movieTitle)|
    ensures r.KeyError? ==> useRating
    ensures useRating && FindId(df, critiqueId).Some? ==>
      var idx := FindId(df, critiqueId).value;
      var block := MovieIndices(df, df[idx].movieTitle);
      idx < |block| ==>
        var top := TopIndices(BlockScores(df, sim, idx, idx, true, ratingWeight), topN);
        (r.KeyError? <==> exists k :: 0 <= k < |top| && top[k] !in block)
    ensures r.Ranked? ==>
      && FindId(df, critiqueId).Some?
      && var idx := FindId(df, critiqueId).value;
         var block := MovieIndices(df, df[idx].movieTitle);
         && idx < |block|
         && var scores := BlockScores(df, sim, idx, idx, useRating, ratingWeight);
            && |r.rows| == SliceLength(|block|, topN) + 1
            && r.rows[0] == Row(df[idx], Some(1.0))
            && r.rows[0].review.id == critiqueId
            && SortedDesc(r.rows[1..], RowKey)
            && AllCarryOwnScore(df, block, scores, r.rows[1..])
            && (!useRating || block == Range(|block|) ==> SelectsTop(r.rows[1..], Candidates(df, block, scores), topN))
            && (useRating ==> PicksByLabel(df, block, scores, topN, r.rows[1..]))
  {
    match FindId(df, critiqueId)
    case None => Introuvable(critiqueId)
    case Some(idx) =>
      var block := MovieIndices(df, df[idx].movieTitle);
      if idx >= |block| then IndexError(idx, |block|)
      else if useRating then
        RankByLabel(df, idx, block, BlockScores(df, sim, idx, idx, true, ratingWeight), topN)
      else
        var rows := Rank(df, sim, idx, idx, topN, false, ratingWeight);
        SelectedCarryOwnScores(df, block, BlockScores(df, sim, idx, idx, false, ratingWeight), rows[1..], topN);
        Ranked(rows)
  }

  /** `get_similar_reviews(critique_id)` with the defaults of line 47: `top_n=5, use_rating=False, rating_weight=0.5`. */
  function SimilarReviewsWithDefaults(df: seq<Critique>, sim: (nat, nat) -> real, critiqueId: int): (r: Outcome)
    ensures !r.KeyError?
    ensures r.Introuvable? <==> forall i :: 0 <= i < |df| ==> df[i].id != critiqueId
    ensures r.Ranked? ==> 1 <= |r.rows| <= 6 && r.rows[0].review.id == critiqueId
  {
    SimilarReviews(df, sim, critiqueId, 5, false, 0.5)
  }

  // ---------------------------------------------------------------------
  // Selection

  /** When `top_n` covers the whole movie, the reference comes back among the trailing rows. */
  lemma ReferenceReappears(df: seq<Critique>, sim: (nat, nat) -> real, idx: nat, slot: nat, topN: int, useRating: bool, w: real)
    requires idx < |df|
    requires slot < |MovieIndices(df, df[idx].movieTitle)|
    requires useRating ==> MaxRating(df) > 0.0
    requires topN >= |MovieIndices(df, df[idx].movieTitle)|
    ensures
      var rows := Rank(df, sim, idx, slot, topN, useRating, w);
      exists t :: 1 <= t < |rows| && rows[t].review == df[idx]
  {
    var block := MovieIndices(df, df[idx].movieTitle);
    var scores := BlockScores(df, sim, idx, slot, useRating, w);
    var top := TopIndices(scores, topN);
    var candidates := Candidates(df, block, scores);
    var picked := Gather(candidates, top);
    var similar := SortDesc(picked, RowKey);
    var rows := Rank(df, sim, idx, slot, topN, useRating, w);
    assert rows[1..] == similar;
    assert idx in block;
    var p :| 0 <= p < |block| && block[p] == idx;
    assert p in top;
    var k :| 0 <= k < |top| && top[k] == p;
    assert picked[k].review == df[idx];
    assert picked[k] in multiset(similar);
    var t :| 0 <= t < |similar| && similar[t] == picked[k];
    assert rows[t + 1] == similar[t];
  }

  // ---------------------------------------------------------------------
  // Scoring

  /**
    A rating weight of 0 gives the scores without rating, hence the same
    positional ranking; the label lookup of the rating path agrees with it
    when the movie's rows are 0, 1, ..., n - 1.
   */
  lemma ZeroWeightIgnoresRating(df: seq<Critique>, sim: (nat, nat) -> real, idx: nat, slot: nat, topN: int, w: real)
    requires idx < |df|
    requires slot < |MovieIndices(df, df[idx].movieTitle)|
    requires MaxRating(df) > 0.0
    ensures BlockScores(df, sim, idx, slot, true, 0.0) == BlockScores(df, sim, idx, slot, false, w)
    ensures Rank(df, sim, idx, slot, topN, true, 0.0) == Rank(df, sim, idx, slot, topN, false, w)
    ensures MovieIndices(df, df[idx].movieTitle) == Range(|MovieIndices(df, df[idx].movieTitle)|) ==>
      RankByLabel(df, idx, MovieIndices(df, df[idx].movieTitle), BlockScores(df, sim, idx, slot, true, 0.0), topN)
        == Ranked(Rank(df, sim, idx, slot, topN, false, w))
  {
    if MovieIndices(df, df[idx].movieTitle) == Range(|MovieIndices(df, df[idx].movieTitle)|) {
      LabelsMatchPositions(df, sim, idx, slot, topN, 0.0);
    }
  }

  /** A rating weight of 1 ranks by rating proximity alone: the lexical similarity plays no part. */
  lemma UnitWeightIgnoresText(df: seq<Critique>, sim: (nat, nat) -> real, other: (nat, nat) -> real, idx: nat, slot: nat, topN: int)
    requires idx < |df|
    requires slot < |MovieIndices(df, df[idx].movieTitle)|
    requires MaxRating(df) > 0.0
    ensures BlockScores(df, sim, idx, slot, true, 1.0) == Proximity(df, idx)
    ensures Rank(df, sim, idx, slot, topN, true, 1.0) == Rank(df, other, idx, slot, topN, true, 1.0)
    ensures
      var block := MovieIndices(df, df[idx].movieTitle);
      RankByLabel(df, idx, block, BlockScores(df, sim, idx, slot, true, 1.0), topN)
        == RankByLabel(df, idx, block, BlockScores(df, other, idx, slot, true, 1.0), topN)
  {
  }

  /** Ratings within [0, max rating] give a rating term within [0, 1]. */
  lemma ProximityInUnitInterval(df: seq<Critique>, idx: nat)
    requires idx < |df|
    requires MaxRating(df) > 0.0
    requires forall i :: 0 <= i < |df| ==> df[i].rating >= 0.0
    ensures forall k :: 0 <= k < |Proximity(df, idx)| ==> 0.0 <= Proximity(df, idx)[k] <= 1.0
  {
  }

  /** Similarities within [0, 1], non-negative ratings and a weight within [0, 1] keep every blended score within [0, 1]. */
  lemma BlendedScoresInUnitInterval(df: seq<Critique>, sim: (nat, nat) -> real, idx: nat, slot: nat, w: real)
    requires idx < |df|
    requires slot < |MovieIndices(df, df[idx].movieTitle)|
    requires MaxRating(df) > 0.0
    requires forall i :: 0 <= i < |df| ==> df[i].rating >= 0.0
    requires forall i, j :: 0.0 <= sim(i, j) <= 1.0
    requires 0.0 <= w <= 1.0
    ensures forall k :: 0 <= k < |BlockScores(df, sim, idx, slot, true, w)| ==>
      0.0 <= BlockScores(df, sim, idx, slot, true, w)[k] <= 1.0
  {
    ProximityInUnitInterval(df, idx);
  }

  /** When the zeroed entry is the reference's own, blending gives the reference the score `w`. */
  lemma BlendedReferenceScoresWeight(df: seq<Critique>, sim: (nat, nat) -> real, idx: nat, slot: nat, w: real)
    requires idx < |df|
    requires slot < |MovieIndices(df, df[idx].movieTitle)|
    requires MovieIndices(df, df[idx].movieTitle)[slot] == idx
    requires MaxRating(df) > 0.0
    ensures BlockScores(df, sim, idx, slot, true, w)[slot] == w
  {
    assert RatingScore(df[idx].rating, df[idx].rating, MaxRating(df)) == 1.0;
    MixZeroOne(w);
  }

  // ---------------------------------------------------------------------
  // Line 75 zeroes entry `idx` of the per-movie vector

  /** Entry `idx` of the per-movie vector is the reference's own row exactly when the rows before it share its movie. */
  lemma ZeroedSlotIsReferenceIff(df: seq<Critique>, idx: nat)
    requires idx < |df|
    requires idx < |MovieIndices(df, df[idx].movieTitle)|
    ensures MovieIndices(df, df[idx].movieTitle)[idx] == idx
        <==> forall i :: 0 <= i < idx ==> df[i].movieTitle == df[idx].movieTitle
  {
    BlockStartsAtZero(df, df[idx].movieTitle, idx);
  }

  /**
    `get_similar_reviews` with lines 75 and 94 corrected: the reference's own
    entry of the per-movie vector is zeroed, and scores are attached by position.
   */
  function SimilarReviewsCorrected(df: seq<Critique>, sim: (nat, nat) -> real, critiqueId: int, topN: int, useRating: bool, ratingWeight: real): (r: Outcome)
    requires useRating && FindId(df, critiqueId).Some? ==> MaxRating(df) > 0.0
    ensures !r.IndexError? && !r.KeyError?
    ensures r.Introuvable? <==> forall i :: 0 <= i < |df| ==> df[i].id != critiqueId
    ensures r.Ranked? ==>
      && FindId(df, critiqueId).Some?
      && var idx := FindId(df, critiqueId).value;
         var block := MovieIndices(df, df[idx].movieTitle);
         && idx in block
         && var scores := BlockScores(df, sim, idx, IndexOf(block, idx), useRating, ratingWeight);
            && |r.rows| == SliceLength(|block|, topN) + 1
            && r.rows[0] == Row(df[idx], Some(1.0))
            && r.rows[0].review.id == critiqueId
            && SortedDesc(r.rows[1..], RowKey)
            && SelectsTop(r.rows[1..], Candidates(df, block, scores), topN)
  {
    match FindId(df, critiqueId)
    case None => Introuvable(critiqueId)
    case Some(idx) =>
      var block := MovieIndices(df, df[idx].movieTitle);
      assert idx in block;
      Ranked(Rank(df, sim, idx, IndexOf(block, idx), topN, useRating, ratingWeight))
  }

  /** In the corrected version the zeroed entry is the reference's, and without rating it scores 0. */
  lemma OwnSlotIsReference(df: seq<Critique>, sim: (nat, nat) -> real, idx: nat, w: real)
    requires idx < |df|
    ensures idx in MovieIndices(df, df[idx].movieTitle)
    ensures
      var block := MovieIndices(df, df[idx].movieTitle);
      var p := IndexOf(block, idx);
      block[p] == idx && BlockScores(df, sim, idx, p, false, w)[p] == 0.0
  {
    assert idx in MovieIndices(df, df[idx].movieTitle);
  }

  /** Two films, the second with two critiques. */
  function TwoFilms(): (df: seq<Critique>)
    ensures |df| == 3
  {
    [ Critique(1, "", "", "Fight Club", 8.0, 0),
      Critique(2, "", "", "Interstellar", 7.0, 0),
      Critique(3, "", "", "Interstellar", 9.0, 0) ]
  }

  /**
    On `TwoFilms`, asking for critique 3 (row 2) indexes a two-entry vector at
    2; asking for critique 2 (row 1) zeroes entry 1, which is row 2, critique 3,
    and leaves critique 2's own similarity.
   */
  lemma SlotMissesReference()
    ensures
      var df := TwoFilms();
      var sim := (i: nat, j: nat) => 0.5;
      && SimilarReviews(df, sim, 3, 5, false, 0.5) == IndexError(2, 2)
      && FindId(df, 2) == Some(1)
      && MovieIndices(df, "Interstellar") == [1, 2]
      && df[MovieIndices(df, "Interstellar")[1]].id == 3
      && SimilarReviewsCorrected(df, sim, 3, 5, false, 0.5).Ranked?
  {
    var df := TwoFilms();
    assert RowsOfFrom(df, "Interstellar", 3) == [];
    assert RowsOfFrom(df, "Interstellar", 2) == [2];
    assert RowsOfFrom(df, "Interstellar", 1) == [1, 2];
    assert MovieIndices(df, "Interstellar") == [1, 2];
    assert FindIdFrom(df, 3, 2) == Some(2);
    assert FindId(df, 3) == Some(2);
    assert FindIdFrom(df, 2, 1) == Some(1);
  }

  /**
    On `TwoFilms` with rating, as in the program's own example call: critique 2
    passes line 75, but its movie's rows are 1 and 2, and line 94 looks up
    label 0, so `KeyError`; the corrected version ranks.
   */
  lemma RatingLookupRaises()
    ensures
      var df := TwoFilms();
      var sim := (i: nat, j: nat) => 0.5;
      && MaxRating(df) > 0.0
      && SimilarReviews(df, sim, 2, 5, true, 0.3).KeyError?
      && SimilarReviewsCorrected(df, sim, 2, 5, true, 0.3).Ranked?
  {
    var df := TwoFilms();
    var sim := (i: nat, j: nat) => 0.5;
    assert df[2].rating == 9.0;
    assert RowsOfFrom(df, "Interstellar", 3) == [];
    assert RowsOfFrom(df, "Interstellar", 2) == [2];
    assert RowsOfFrom(df, "Interstellar", 1) == [1, 2];
    assert MovieIndices(df, "Interstellar") == [1, 2];
    assert FindIdFrom(df, 2, 1) == Some(1);
    assert FindId(df, 2) == Some(1);
    LabelLookupFailsOffStart(df, 1, [1, 2], BlockScores(df, sim, 1, 1, true, 0.3), 5);
  }
}

=== FILE: scoring.dfy ===
/**
  The optional rating blend of `get_similar_reviews`
  (recommandation_critiques.py, lines 78-81):

      rating_score = 1 - |r_i - r_ref| / max_rating
      score_i      = (1 - w) * lexical_i + w * rating_score_i

  where `max_rating` is the largest rating of the whole table.
 */
module Scoring {

  function Abs(x: real): (a: real)
    ensures a >= 0.0
    ensures a == x || a == -x
  {
    if x < 0.0 then -x else x
  }

  /** Rating proximity of a candidate to the reference, normalised by `maxRating`. */
  function RatingScore(rating: real, refRating: real, maxRating: real): (r: real)
    requires maxRating > 0.0
    ensures r <= 1.0
    ensures r == 1.0 <==> rating == refRating
    ensures 0.0 <= rating <= maxRating && 0.0 <= refRating <= maxRating ==> 0.0 <= r
  {
    var d := Abs(rating - refRating);
    var q := d / maxRating;
    assert q * maxRating == d;
    assert q >= 0.0;
    assert d <= maxRating ==> q <= 1.0;
    assert q == 0.0 <==> d == 0.0;
    1.0 - q
  }

  lemma MulNonNeg(a: real, b: real)
    requires a >= 0.0 && b >= 0.0
    ensures a * b >= 0.0
  {
  }

  /** A convex combination of two numbers lies between them. */
  lemma MixBetween(l: real, p: real, w: real)
    requires 0.0 <= w <= 1.0
    ensures l <= p ==> l <= Mix(l, p, w) <= p
    ensures p < l ==> p <= Mix(l, p, w) <= l
  {
    var c := (1.0 - w) * l + w * p;
    assert c == l + w * (p - l);
    assert c == p + (1.0 - w) * (l - p);
    if l <= p {
      MulNonNeg(w, p - l);
      MulNonNeg(1.0 - w, p - l);
      assert (1.0 - w) * (l - p) == -((1.0 - w) * (p - l));
    } else {
      MulNonNeg(w, l - p);
      MulNonNeg(1.0 - w, l - p);
      assert w * (p - l) == -(w * (l - p));
    }
  }

  /** The combined score of line 81 for one entry. */
  function Mix(l: real, p: real, w: real): real {
    (1.0 - w) * l + w * p
  }

  /** A lexical part of 0 and a rating part of 1 combine to the weight itself. */
  lemma MixZeroOne(w: real)
    ensures Mix(0.0, 1.0, w) == w
  {
  }

  /** `(1 - w) * lexical + w * proximity`, element-wise. */
  function Blend(lexical: seq<real>, proximity: seq<real>, w: real): (r: seq<real>)
    requires |proximity| == |lexical|
    ensures |r| == |lexical|
    ensures forall k :: 0 <= k < |r| ==> r[k] == Mix(lexical[k], proximity[k], w)
    ensures w == 0.0 ==> r == lexical
    ensures w == 1.0 ==> r == proximity
    ensures 0.0 <= w <= 1.0 ==> forall k :: 0 <= k < |r| ==>
      (if lexical[k] <= proximity[k] then lexical[k] <= r[k] <= proximity[k]
       else proximity[k] <= r[k] <= lexical[k])
  {
    var r := seq(|lexical|, k requires 0 <= k < |lexical| => Mix(lexical[k], proximity[k], w));
    BlendBetween(lexical, proximity, w, r);
    r
  }

  lemma BlendBetween(lexical: seq<real>, proximity: seq<real>, w: real, r: seq<real>)
    requires |proximity| == |lexical| == |r|
    requires forall k :: 0 <= k < |r| ==> r[k] == Mix(lexical[k], proximity[k], w)
    ensures 0.0 <= w <= 1.0 ==> forall k :: 0 <= k < |r| ==>
      (if lexical[k] <= proximity[k] then lexical[k] <= r[k] <= proximity[k]
       else proximity[k] <= r[k] <= lexical[k])
  {
    if 0.0 <= w <= 1.0 {
      forall k | 0 <= k < |r|
        ensures if lexical[k] <= proximity[k] then lexical[k] <= r[k] <= proximity[k]
                else proximity[k] <= r[k] <= lexical[k]
      {
        MixBetween(lexical[k], proximity[k], w);
      }
    }
  }
}

=== FILE: sorting.dfy ===
/**
  Descending sort on a two-part key, compared lexicographically.

  Both orderings of the recommender are descending: numpy's `argsort()[::-1]`
  on the score vector, and pandas' `sort_values` on (similarity, like count)
  with `ascending=[False, False]`. Neither library promises an order among
  equal keys, so the contracts below only speak of sortedness and of the
  result being a permutation of the input.

  A similarity can be NaN (`None` here). pandas' default `na_position="last"`
  puts NaN after every number whatever the direction, and rows whose
  similarities are both NaN are then ordered by the like count.
 */
module Sorting {
  import opened Options

  /** A sort key: `primary` decides (`None` is NaN), `secondary` breaks ties. */
  datatype Key = Key(primary: Option<real>, secondary: int)

  /** `a` may be placed before `b` in a descending order with NaN last. */
  predicate AtLeast(a: Key, b: Key) {
    if a.primary.Some? != b.primary.Some? then a.primary.Some?
    else if a.primary.Some? && a.primary.value != b.primary.value then a.primary.value > b.primary.value
    else a.secondary >= b.secondary
  }

  /** Every element is at least every later element. */
  ghost predicate SortedDesc<T>(xs: seq<T>, key: T -> Key) {
    forall i, j :: 0 <= i < j < |xs| ==> AtLeast(key(xs[i]), key(xs[j]))
  }

  /** No element occurs twice. */
  ghost predicate NoDup<T>(xs: seq<T>) {
    forall i, j :: 0 <= i < j < |xs| ==> xs[i] != xs[j]
  }

  /** `x` is at least every element of `ys`. */
  ghost predicate Dominates<T>(x: T, ys: seq<T>, key: T -> Key) {
    forall j :: 0 <= j < |ys| ==> AtLeast(key(x), key(ys[j]))
  }

  /** Prepending an element that dominates a sorted sequence keeps it sorted. */
  lemma ConsSorted<T>(x: T, ys: seq<T>, key: T -> Key)
    requires SortedDesc(ys, key)
    requires Dominates(x, ys, key)
    ensures SortedDesc([x] + ys, key)
  {
    var r := [x] + ys;
    forall i, j | 0 <= i < j < |r| ensures AtLeast(key(r[i]), key(r[j])) {
      assert r[j] == ys[j - 1];
      if i > 0 {
        assert r[i] == ys[i - 1];
      }
    }
  }

  /** Domination carries over to any sequence with no more elements. */
  lemma DominatesSubMultiset<T>(x: T, ys: seq<T>, zs: seq<T>, key: T -> Key)
    requires Dominates(x, ys, key)
    requires multiset(zs) <= multiset(ys)
    ensures Dominates(x, zs, key)
  {
    forall j | 0 <= j < |zs| ensures AtLeast(key(x), key(zs[j])) {
      assert zs[j] in multiset(zs);
      assert zs[j] in multiset(ys);
      var k :| 0 <= k < |ys| && ys[k] == zs[j];
    }
  }

  /** Inserts `x` into the descending sequence `ys`, before the first element it is at least. */
  function Insert<T>(x: T, ys: seq<T>, key: T -> Key): (r: seq<T>)
    requires SortedDesc(ys, key)
    ensures multiset(r) == multiset(ys) + multiset{x}
    ensures SortedDesc(r, key)
  {
    if |ys| == 0 then [x]
    else if AtLeast(key(x), key(ys[0])) then
      assert Dominates(x, ys, key);
      ConsSorted(x, ys, key);
      [x] + ys
    else
      assert ys == [ys[0]] + ys[1..];
      var rest := Insert(x, ys[1..], key);
      assert Dominates(ys[0], ys[1..] + [x], key);
      assert multiset(rest) == multiset(ys[1..] + [x]);
      DominatesSubMultiset(ys[0], ys[1..] + [x], rest, key);
      ConsSorted(ys[0], rest, key);
      [ys[0]] + rest
  }

  /** Insertion sort into descending key order. */
  function SortDesc<T>(xs: seq<T>, key: T -> Key): (r: seq<T>)
    ensures multiset(r) == multiset(xs)
    ensures SortedDesc(r, key)
  {
    if |xs| == 0 then []
    else
      assert xs == [xs[0]] + xs[1..];
      Insert(xs[0], SortDesc(xs[1..], key), key)
  }

  /** A sorted arrangement of two elements whose keys are strictly ordered is that order. */
  lemma SortedPair<T>(xs: seq<T>, a: T, b: T, key: T -> Key)
    requires multiset(xs) == multiset([a, b])
    requires SortedDesc(xs, key)
    requires !AtLeast(key(b), key(a))
    ensures xs == [a, b]
  {
    assert |xs| == |multiset(xs)| == 2;
    assert xs == [xs[0], xs[1]];
    assert AtLeast(key(xs[0]), key(xs[1]));
    assert multiset{xs[0], xs[1]} == multiset{a, b};
  }

  /** Two equal elements at distinct positions count twice. */
  lemma RepeatCountsTwice<T>(ys: seq<T>, i: nat, j: nat)
    requires i < j < |ys|
    ensures ys[i] == ys[j] ==> multiset(ys)[ys[i]] >= 2
  {
    assert ys == ys[..j] + ys[j..];
    assert ys[..j][i] == ys[i];
    assert ys[j..][0] == ys[j];
    assert multiset(ys)[ys[i]] == multiset(ys[..j])[ys[i]] + multiset(ys[j..])[ys[i]];
  }

  /** In a duplicate-free sequence every element occurs at most once. */
  lemma {:induction false} NoDupCountsOnce<T>(xs: seq<T>, e: T)
    requires NoDup(xs)
    ensures multiset(xs)[e] <= 1
  {
    if |xs| > 0 {
      assert xs == [xs[0]] + xs[1..];
      assert NoDup(xs[1..]) by {
        forall i, j | 0 <= i < j < |xs[1..]| ensures xs[1..][i] != xs[1..][j] {
          assert xs[1..][i] == xs[i + 1] && xs[1..][j] == xs[j + 1];
        }
      }
      NoDupCountsOnce(xs[1..], e);
      if xs[0] == e {
        assert e !in xs[1..];
      }
    }
  }

  /** A permutation of a duplicate-free sequence is duplicate-free. */
  lemma PermutationNoDup<T>(xs: seq<T>, ys: seq<T>)
    requires multiset(xs) == multiset(ys)
    requires NoDup(xs)
    ensures NoDup(ys)
  {
    forall i, j | 0 <= i < j < |ys| ensures ys[i] != ys[j] {
      NoDupCountsOnce(xs, ys[i]);
      RepeatCountsTwice(ys, i, j);
    }
  }
}
